=== FILE: README.md ===
# Task manager store and query core, in Dafny

This project models the data layer of a browser task manager that comes in two
variants.

- **Pro variant** (`script_pro.js`). Task records carry a category, a priority
  and a status. When the indexed database is unavailable they live in a flat
  list under one `localStorage` key. `saveTask` upserts a record by id and
  `deleteTask` filters it out. `searchTasks` either applies a four-way
  conjunctive filter followed by a title, priority or date sort, or falls back
  to a title-and-notes search in storage order. Every mutator re-reads the list,
  changes one record and saves it back. Import validates a backup document and
  then merges it by id.
- **Simple variant** (`script_fixed.js`). Tasks live in an in-memory list.
  Creating or duplicating a task appends one; deleting filters it out. Content
  items are added, removed and edited in place. The module also covers the
  active-task selection rule.
- **Shared by both.** The task-card counters, the first-note text preview and
  the PDF filename sanitisers.

Everything is a pure function over immutable datatypes (`seq<Task>` is the
store). The clock, freshly minted ids, the answers to `confirm()` and to the
image-preview dialog, and the stored settings are parameters.

Modules, one per file:

| file | module | what it holds |
|---|---|---|
| results.dfy | `Results` | `Option`, `Result` |
| seqs.dfy | `Seqs` | `filter`, `findIndex` and counting, with their laws |
| strings.dfy | `Strings` | JavaScript `\s`/`trim`, lower-casing, `includes`, title order |
| content.dfy | `Content` | content items, summary counters, text preview |
| filenames.dfy | `Filenames` | both PDF filename sanitisers |
| pro_store.dfy | `ProStore` | pro task record, flat-store upsert and delete |
| pro_query.dfy | `ProQuery` | `searchTasks` (both branches), sort, counters |
| pro_tasks.dfy | `ProTasks` | create, edit, toggle, delete, duplicate, content mutators |
| pro_backup.dfy | `ProBackup` | settings, backup/export document, import |
| simple_store.dfy | `SimpleStore` | the simple variant's list operations |

Behaviours of the code worth knowing:

- Pro `duplicateTask` copies `content` by spread, so the copy's items keep the
  original's ids. It is not a deep copy with fresh ids.
- Pro `toggleTaskStatus` sends every status other than `'completed'` to
  `'completed'`. It is not a strict flip between two values.
- Search over text notes happens only in the pro flat-store fallback. The
  indexed branch searches title and category.
- Only the status filter honours the `'all'` sentinel.
- Pro image adding reads `currentTaskDetail` twice: once when the user starts,
  and again after the preview is accepted. If the detail view was closed in
  between, the second read throws a TypeError and nothing is stored; the model
  gives both reads as parameters and writes nothing in that case. If another
  task was opened in between, the image goes to that task.

## Model

| member | source | states |
|---|---|---|
| Strings.Trim | script_pro.js:530 | `trim()` returns the input with only a leading and a trailing run of whitespace removed: the result is a contiguous slice flanked by whitespace; it is empty exactly when the input is all whitespace, and otherwise starts and ends with non-whitespace |
| Strings.TrimIdempotent | script_pro.js:530 | trimming a trimmed string changes nothing |
| Strings.Lower | script_pro.js:172-174 | `toLowerCase` keeps the length, moves each ASCII capital 32 code points down to its lower-case letter, leaves every other character alone, and leaves no ASCII capital in the result; the fallback search (lines 157-158) and the simple slug (script_fixed.js:680) use it too |
| Strings.ContainsSpec | script_pro.js:172-174 | the `includes` scan is true exactly when the query occurs at some position |
| Strings.LexLe | script_pro.js:190 | a title precedes every title it is a prefix of |
| Strings.LexLeFirstDifference | script_pro.js:190 | `a` comes no later than `b` exactly when `a` is a prefix of `b` or the first position where they differ holds a smaller character in `a` |
| Strings.LexLeAntisymmetric | script_pro.js:190 | two titles ordered both ways are equal |
| Strings.LexLeTotal | script_pro.js:190 | any two titles are comparable in the title order |
| Strings.LexLeTransitive | script_pro.js:190 | the title order is transitive |
| Content.ContentSummary | script_fixed.js:380-386 | the summary is "no content" iff there is no image and no non-blank note; otherwise it carries the image and note counts, at least one of them positive and together at most the item count |
| Content.CountsPartition | script_fixed.js:381-382 | images plus non-blank notes never exceed the item count, and equal it iff every item is an image or a non-blank note |
| Content.TextPreview | script_fixed.js:408-420 | the preview is empty iff there is no non-blank note; otherwise it is the first such note trimmed, cut to 80 characters plus "..." when longer, so it never exceeds 83 |
| Content.ItemIndex | script_pro.js:1066 | the position of the first item with the id, or the length when none has it |
| Content.WithoutItem | script_fixed.js:221 | equals `filter` with `item.id !== id`: the items with other ids, in their order and multiplicity, and the list unchanged when no item has the id |
| Filenames.ProSlug | script_pro.js:962 | same length as the title; ASCII letters and digits kept, every other character becomes `_` |
| Filenames.ProSlugIdempotent | script_pro.js:962 | sanitising a sanitised title changes nothing |
| Filenames.ProPdfFilename | script_pro.js:962 | the filename is `tarea_`, the sanitised title, then `.pdf` |
| Filenames.CollapseSpaces | script_fixed.js:680 | the result has no whitespace and is no longer than the input; how each run is replaced is stated by the lemmas in the next rows |
| Filenames.CollapseFromConcat | script_fixed.js:680 | the left-to-right replace of a concatenation is the replace of each part, the second resumed in whatever run state the first ended in |
| Filenames.CollapseNoSpaces | script_fixed.js:680 | text without whitespace passes through unchanged |
| Filenames.CollapseRun | script_fixed.js:680 | a non-empty whitespace run entered from outside a run emits exactly one `_`, and nothing when already inside one |
| Filenames.CollapseSpacesRun | script_fixed.js:680 | a non-empty whitespace run between non-space text becomes exactly one `_` |
| Filenames.SimpleSlug | script_fixed.js:680 | the result contains only `[a-z0-9_]` and is no longer than the title; for a title without whitespace it is exactly the lower-cased title's allowed characters, in order |
| Filenames.SimpleSlugIdempotent | script_fixed.js:680 | sanitising a sanitised title changes nothing |
| Filenames.SimplePdfFilename | script_fixed.js:680 | the filename is `tarea_`, the simple slug, then `.pdf` |
| ProStore.HasIdIndexOf | script_pro.js:78 | `findIndex` finds a position exactly when some record carries the id |
| ProStore.IndexOf | script_pro.js:78 | `findIndex` by id: the first matching position, or the length when no record has the id |
| ProStore.LoadTasksFromStorage | script_pro.js:208-211 | the stored list, or the empty list when the key was never written |
| ProStore.SaveTask | script_pro.js:74-86 | an existing id is replaced at its first position, with the length and all other entries unchanged; otherwise the task is appended; positions keep their ids and the saved id is present afterwards |
| ProStore.SaveThenFind | script_pro.js:74-86 | after a save, looking up the saved id finds the saved record, and looking up any other id finds what it found before |
| ProStore.SaveIdempotent | script_pro.js:74-86 | saving the same task twice equals saving it once |
| ProStore.SaveKeepsUniqueIds | script_pro.js:74-86 | saving preserves the invariant that ids are unique |
| ProStore.SaveIntoEmptyStorage | script_pro.js:208-211 | saving into never-written storage yields the one-record list |
| ProStore.DeleteTask | script_pro.js:119-126 | no remaining record has the id; every record with another id survives; an absent id changes nothing; a present one shrinks the list |
| ProStore.DeleteTaskIsFilter | script_pro.js:119-126 | the delete equals `filter` with `t.id !== id`: survivors keep their stored order and multiplicity |
| ProStore.DeleteThenFindGone | script_pro.js:119-126 | after a delete, looking up the id finds nothing |
| ProStore.DeleteThenFindOther | script_pro.js:119-126 | after a delete, looking up any other id finds what it found before |
| ProStore.DeleteKeepsUniqueIds | script_pro.js:119-126 | deleting preserves unique ids |
| ProQuery.Rank | script_pro.js:192-193 | high ranks 3, medium 2 and low 1, and every other priority ranks 0 |
| ProQuery.SortKeyOf | script_pro.js:189-195 | `sortBy` `'title'` selects the title order, `'priority'` the priority order, and every other value (absent included) newest first |
| ProQuery.Insert | script_pro.js:189-196 | inserting into a sorted list gives a sorted list with one more element and the same elements plus the inserted one |
| ProQuery.SortTasks | script_pro.js:188-196 | the output is a permutation of the input, sorted by ascending title, non-increasing rank, or non-increasing `createdAt` |
| ProQuery.InsertStable | script_pro.js:188-196 | an inserted task lands ahead of every task the comparator ties with it, and tied tasks otherwise keep their order |
| ProQuery.SortStable | script_pro.js:188-196 | the sort is stable, as `Array.prototype.sort` is: for any task, the tasks the comparator ties with it come out in the order they went in |
| ProQuery.SearchIndexedStable | script_pro.js:188-196 | among the matching tasks, those the sort mode ties with a given task appear in the result in their stored order |
| ProQuery.SearchIndexed | script_pro.js:169-198 | a task is in the result iff it is stored and all four conditions hold (query empty or in the lower-cased title or category; status absent, `'all'` or equal; priority absent or equal; category absent or equal); matching tasks keep their multiplicity; the result is sorted by the requested mode |
| ProQuery.FilterMultiplicity | script_pro.js:171-186 | the filter keeps each matching task as many times as it is stored, and nothing that does not match |
| ProQuery.SearchFallback | script_pro.js:154-160 | a task is kept iff its lower-cased title or some text item's lower-cased body contains the lower-cased query, and each kept task as many times as it is stored |
| ProQuery.SearchFallbackConcat | script_pro.js:154-160 | the fallback keeps storage order: searching a concatenation concatenates the answers |
| ProQuery.FallbackEmptyQueryKeepsAll | script_pro.js:154-160 | with an empty query the fallback returns the store unchanged, in storage order |
| ProQuery.UnfilteredListsEverything | script_pro.js:153-206 | with no query and no filters either branch lists every stored task exactly as often as it is stored |
| ProQuery.SearchTasks | script_pro.js:153-198 | with the indexed database the answer holds exactly the stored tasks meeting query and filters, sorted by the requested mode; without it, exactly the tasks whose title or notes mention the query, each as often as stored |
| ProQuery.FallbackIgnoresFilters | script_pro.js:153-163 | without the indexed database the filters and the sort mode have no effect |
| ProQuery.TaskCounters | script_pro.js:713-716 | total is the list length, completed and active are the numbers of tasks with exactly that status; completed plus active never exceeds the total, and equals it iff every status is active or completed |
| ProTasks.CreateTask | script_pro.js:529-554 | a blank title is rejected with no write; otherwise, for a fresh id, exactly one task is appended with the trimmed title, category defaulting to General, priority to medium, status active, no content and both timestamps now; when the id is already stored, the record at its position is replaced by exactly that new task and nothing else changes |
| ProTasks.CreatedTaskListedOnce | script_pro.js:529-554 | in a store with unique ids, the created record appears exactly once in the unfiltered list, in either search branch, even when its id was already taken |
| ProTasks.UpdateExistingTask | script_pro.js:922-951 | a blank title is rejected; otherwise the found task gets the trimmed title, the defaulted category and priority, and a new `updatedAt`, and keeps its id, status, content and `createdAt`; an absent id and all other records are unchanged |
| ProTasks.ToggledStatus | script_pro.js:561 | the result is active or completed, and active exactly when the input was completed |
| ProTasks.ToggledStatusTwice | script_pro.js:561 | toggling twice restores the status exactly when it was active or completed |
| ProTasks.ToggleTaskStatus | script_pro.js:556-569 | only the found record's status and `updatedAt` change; an absent id is a no-op |
| ProTasks.ToggleTwice | script_pro.js:556-569 | toggling an active or completed task twice restores the store except for the last `updatedAt` |
| ProTasks.DeleteTaskConfirm | script_pro.js:571-580 | the record is removed only when it exists and the user confirms, and then the result is the store filtered by `t.id !== id`, in order; records with other ids always survive |
| ProTasks.DuplicateTask | script_pro.js:883-901 | for a fresh id, exactly one record is appended with the suffixed title, status active, and the original's category, priority and content (item ids shared); the original is unchanged; an absent id is a no-op; when the fresh id is already stored, the record at its position is replaced by exactly that copy and nothing else changes |
| ProTasks.UpdateTaskContent | script_pro.js:1061-1076 | the first item with the id gets the new body and `updatedAt`, as does its task; everything else is unchanged; an absent task or item is a no-op |
| ProTasks.UpdateThenRead | script_pro.js:1061-1076 | a fresh lookup right after the update sees the new body |
| ProTasks.DeleteContentFromTask | script_pro.js:1078-1096 | after confirmation the task keeps only items with other ids and gets a new `updatedAt`, even when no item matched; otherwise nothing changes |
| ProTasks.AppendItem | script_pro.js:1113-1118 | the found task gets the item at the end of its content and a new `updatedAt`; every other record is unchanged |
| ProTasks.AddNoteToTask | script_pro.js:1099-1123 | with a task open, an empty text note is appended to the stored copy; with none open, or when it is no longer stored, nothing changes |
| ProTasks.AddImageToTask | script_pro.js:1125-1168 | with a task open when the user starts, an accepted preview and a task still open at acceptance, the image is appended to the stored copy of the task open at acceptance and nothing else changes; with no task open at either read, a refused preview or no stored record, nothing changes; the paste handler (lines 376-405) follows the same two reads |
| ProBackup.GetSettings | script_pro.js:658-665 | theme and language are the stored values when non-empty, else light and es; auto-backup is off exactly when the stored value is `'false'` |
| ProBackup.MakeBackup | script_pro.js:583-598 | the backup carries version `2.0`, the current time, the whole store and the current settings |
| ProBackup.SaveAll | script_pro.js:640-642 | folding saves never shrinks the store or changes the id at an existing position |
| ProBackup.ImportData | script_pro.js:638-648 | a document lacking version or tasks is rejected with no write; otherwise every existing position keeps its id, a lookup of any id finds the last imported record with it (or the pre-import record when the import does not mention it), and records whose id the import never mentions stay where they were, unchanged |
| ProBackup.LastWithId | script_pro.js:640-642 | the record returned is an imported one with the id and no later imported record has the id; none when no imported record has it |
| ProBackup.ImportLastWins | script_pro.js:638-645 | after an import, a lookup finds the last imported record with the id, or the pre-import record when the import did not mention it |
| ProBackup.ImportKeepsUntouched | script_pro.js:638-645 | records whose id the import does not mention stay at their position, unchanged |
| ProBackup.ImportOwnRecords | script_pro.js:638-645 | importing a store's own records into it, with unique ids, changes nothing |
| ProBackup.ImportIntoEmpty | script_pro.js:638-645 | importing records with unique ids into an empty store rebuilds them in order |
| ProBackup.BackupRoundTrip | script_pro.js:600-645 | importing the export of a store with unique ids gives back that store, both over itself and over an empty store |
| SimpleStore.IndexOf | script_fixed.js:189 | the first position with the id, or the length when none has it |
| SimpleStore.CreateTask | script_fixed.js:163-186 | a blank title leaves the list unchanged; otherwise exactly one task is appended at the end with the trimmed title and no content |
| SimpleStore.WithoutTask | script_fixed.js:191 | equals `filter` with `task.id !== id`: the tasks with other ids in their order and multiplicity; shrinks the list when the id was present |
| SimpleStore.DeleteTask | script_fixed.js:188-196 | nothing changes unless the id exists and the user confirms; then the list is filtered by `task.id !== id`, keeping the others in order, and no task with the id remains |
| SimpleStore.AddContentToTask | script_fixed.js:198-216 | one item is appended to the first task with the id; earlier items and every other task are unchanged; an absent task is a no-op |
| SimpleStore.AddTextContent | script_fixed.js:525-527 | appends an empty text note to the first task with the id, whose id, title and creation time stay as they were; every other task is unchanged; an absent task is a no-op |
| SimpleStore.DeleteContentFromTask | script_fixed.js:218-230 | the first matching task's items become that list filtered by `item.id !== itemId`, in order; its other fields and every other task are unchanged; an absent task or item is a no-op |
| SimpleStore.UpdateContentInTask | script_fixed.js:232-241 | only the body of the first item with the id changes; an absent task or item is a no-op |
| SimpleStore.GetActiveTask | script_fixed.js:280-291 | a set `activeTaskId` decides alone, by lookup, with no fallback; otherwise the open task; otherwise the first task, or none for an empty list |
| SimpleStore.ActiveTaskIsStored | script_fixed.js:280-291 | the active task is a stored task whenever the open task is |
| SimpleStore.RemintItems | script_fixed.js:542-545 | same length; each item equals the original except for its newly minted id |
| SimpleStore.DuplicateTask | script_fixed.js:536-553 | exactly one copy is appended with the suffixed title and the original's items re-minted: same order, type, body and timestamps, new ids; the original is unchanged; an absent id is a no-op |
| SimpleStore.DuplicateSharesNoItemIds | script_fixed.js:536-553 | when the original's items were minted before the clock reading of the copy and the copy's at or after it, the copy shares no item id with the original |

## Left out

- The indexed-database backend is not modelled. That covers opening it, creating its schema, its transactional put, getAll and delete, and its content-store cascade. It is asynchronous browser plumbing. `ProQuery.SearchIndexed` takes the records that `getAll` returned as a sequence.
- Failure paths of storage calls are not modelled: caught exceptions, a `searchTasks` that resolves to an empty list, and `JSON.parse` errors in import. These need a runtime that can fail.
- DOM rendering is not modelled. That covers task cards, the detail view, HTML and PDF assembly, modals, notifications and the `html2pdf` call. Summary and preview are modelled as their counts and strings, without the markup or the "imagen"/"imagenes" and "nota"/"notas" labels.
- Timers are not modelled: the 1 s debounced note save, the 300 ms search debounce, the 100 ms delayed update in the simple variant and the 5-minute backup interval. They are scheduling, not logic.
- Browser inputs are not modelled: FileReader, clipboard paste, drag-and-drop, file pickers and Blob downloads. Only the image data they produce is passed in.
- Ids, timestamps and settings come from `Date.now()`, `Math.random()`, ISO strings and `localStorage`. They are parameters here. Timestamps are integers in milliseconds, so an imported date that does not parse, which would make the sort comparator NaN, is not modelled. `toLocaleDateString` is left out.
- The stored JSON text is not modelled. The store is the `seq<Task>` itself, and `saveTasks`/`loadTasks` in the simple variant amount to the identity.
- Records missing `title` or `content` can only arrive by import. There `toLowerCase` or `.some` throws, so they are not modelled. A missing `category` or `priority` is represented by the empty string, which every comparison in the core treats the same way.
- The `!task.content` guards in the pro summary and preview are not modelled, because content is always present in the model.
- The pro UI never assigns `filterCategory`, so the category filter is always absent when the list is rendered. `ProQuery.SearchIndexed` models the function with all four filters.
- Pro `createTask` and the other mutators read the clock twice when they write `createdAt`/`updatedAt`. Both reads are one `now`.
- The simple variant's `updateTaskCounter` shows `tasks.length` and is not modelled separately.
- ProQuery.Rank: ranks every priority outside high, medium and low as 0. The source reads `priorityOrder[p] || 0` from an object literal, so a priority naming an `Object.prototype` member (`toString`, `constructor`, `__proto__` and the like) yields a non-number, and the comparator returns NaN, which `sort` treats as a tie. Such priorities can only come from imported data.
- Strings.Lower: lower-cases ASCII `A`–`Z` only. JavaScript's `toLowerCase` covers all of Unicode, so non-ASCII letters differ in case-insensitive matching. A few characters, such as the Kelvin sign and dotted capital I, lower-case into ASCII and would survive the simple slug.
- Strings.LexLe: orders titles by code point, standing in for `localeCompare`. Locale collation orders accents and case differently.
- Content.TextPreview: counts characters, not UTF-16 code units, so the 80-character cut differs from the source for text outside the Basic Multilingual Plane.
- Filenames.ProSlug: replaces each character with one `_`. The source's regex works on UTF-16 code units, so a character outside the Basic Multilingual Plane becomes two.
- SimpleStore.DuplicateSharesNoItemIds: takes as a hypothesis that the clock moved between the original items' creation and the copy. Item ids come from `Date.now()` (plus `Math.random()` in a copy), and nothing in the source rules out a reading of the same millisecond.

=== FILE: content.dfy ===
/** Content items shared by both variants, and the two read-only views a task
    card shows of them: the summary counters and the first-note preview. */
module Content {
  import opened Results
  import opened Strings
  import opened Seqs

  /** Ids are minted from the clock by the caller; the model treats them as opaque integers. */
  type ItemId = int

  /** A point in time, in milliseconds; ISO-8601 strings are abstracted to the instant they denote. */
  type Stamp = int

  /** The item `type` field: `'text'`, `'image'`, or whatever an imported record carries. */
  datatype Kind = Text | Image | Other(tag: string)

  /** A note or image attached to a task. The simple variant never writes `updatedAt`. */
  datatype ContentItem = ContentItem(id: ItemId, kind: Kind, content: string, createdAt: Stamp, updatedAt: Option<Stamp>)

  /** Why a user action was refused without touching the store. */
  datatype Rejection = TitleRequired | InvalidFormat

  const PreviewLimit: nat := 80
  const Ellipsis: string := "..."

  predicate IsImage(c: ContentItem)
  {
    c.kind == Image
  }

  /** A text item whose body is not blank: the only items the summary counts as notes. */
  predicate IsNote(c: ContentItem)
  {
    c.kind == Text && !IsBlank(c.content)
  }

  function ImageCount(items: seq<ContentItem>): nat
  {
    Count(IsImage, items)
  }

  function NoteCount(items: seq<ContentItem>): nat
  {
    Count(IsNote, items)
  }

  /** The counters behind the card's summary line, which reads "Sin contenido" when there is nothing to count. */
  datatype Summary = NoContent | Indicators(images: nat, notes: nat)

  function ContentSummary(items: seq<ContentItem>): (r: Summary)
    ensures r.NoContent? <==> forall i :: 0 <= i < |items| ==> !IsImage(items[i]) && !IsNote(items[i])
    ensures r.Indicators? ==> r.images == ImageCount(items) && r.notes == NoteCount(items)
    ensures r.Indicators? ==> 0 < r.images + r.notes <= |items|
  {
    CountZero(IsImage, items);
    CountZero(IsNote, items);
    CountDisjoint(IsImage, IsNote, items);
    var images := ImageCount(items);
    var notes := NoteCount(items);
    if images == 0 && notes == 0 then NoContent else Indicators(images, notes)
  }

  /** Images and notes partition the items exactly when there is no blank text
      item and no item of an unknown kind. */
  lemma CountsPartition(items: seq<ContentItem>)
    ensures ImageCount(items) + NoteCount(items) <= |items|
    ensures ImageCount(items) + NoteCount(items) == |items| <==>
              forall i :: 0 <= i < |items| ==> IsImage(items[i]) || IsNote(items[i])
  {
    CountDisjoint(IsImage, IsNote, items);
  }

  /** The card's text preview: the first non-blank note, trimmed, cut to
      `PreviewLimit` characters with an ellipsis when longer; empty when there is no note. */
  function TextPreview(items: seq<ContentItem>): (r: string)
    ensures r == [] <==> forall i :: 0 <= i < |items| ==> !IsNote(items[i])
    ensures |r| <= PreviewLimit + |Ellipsis|
    ensures r != [] ==>
              var t := Trim(items[FirstIndex(IsNote, items)].content);
              && (|t| <= PreviewLimit ==> r == t)
              && (|t| > PreviewLimit ==> r == t[..PreviewLimit] + Ellipsis)
  {
    var k := FirstIndex(IsNote, items);
    if k == |items| then []
    else
      var t := Trim(items[k].content);
      if |t| > PreviewLimit then t[..PreviewLimit] + Ellipsis else t
  }

  /** The `findIndex` predicate `x => x.id === id`. */
  function ItemIdIs(id: ItemId): ContentItem -> bool
  {
    (x: ContentItem) => x.id == id
  }

  /** `contentItem => contentItem.id === id`, as a position. */
  function ItemIndex(items: seq<ContentItem>, id: ItemId): (k: nat)
    ensures k <= |items|
    ensures k < |items| ==> items[k].id == id
    ensures forall j :: 0 <= j < k ==> items[j].id != id
  {
    FirstIndex(ItemIdIs(id), items)
  }

  predicate HasItemId(items: seq<ContentItem>, id: ItemId)
  {
    ItemIndex(items, id) < |items|
  }

  lemma ItemIndexUnique(items: seq<ContentItem>, id: ItemId, k: nat)
    requires k <= |items|
    requires k < |items| ==> items[k].id == id
    requires forall j :: 0 <= j < k ==> items[j].id != id
    ensures ItemIndex(items, id) == k
  {
    FirstIndexUnique(ItemIdIs(id), items, k);
  }

  /** The `filter` predicate `item => item.id !== id`. */
  function ItemIdIsNot(id: ItemId): ContentItem -> bool
  {
    (x: ContentItem) => x.id != id
  }

  /** `items.filter(item => item.id !== id)`: the other items, in order and
      each as often as before. */
  function WithoutItem(items: seq<ContentItem>, id: ItemId): (r: seq<ContentItem>)
    ensures r == Filter(ItemIdIsNot(id), items)
    ensures |r| <= |items|
    ensures forall j :: 0 <= j < |r| ==> r[j].id != id && r[j] in items
    ensures forall j :: 0 <= j < |items| && items[j].id != id ==> items[j] in r
    ensures (forall j :: 0 <= j < |items| ==> items[j].id != id) ==> r == items
  {
    assert (forall j :: 0 <= j < |items| ==> items[j].id != id) ==> Filter(ItemIdIsNot(id), items) == items by {
      if forall j :: 0 <= j < |items| ==> items[j].id != id {
        FilterKeepsAll(ItemIdIsNot(id), items);
      }
    }
    if items == [] then []
    else
      var rest := WithoutItem(items[1..], id);
      if items[0].id == id then rest else [items[0]] + rest
  }
}

=== FILE: filenames.dfy ===
/** The PDF export filenames both variants derive from a task title. */
module Filenames {
  import opened Strings
  import opened Seqs

  const PdfPrefix: string := "tarea_"
  const PdfSuffix: string := ".pdf"

  predicate IsAsciiAlnum(c: char)
  {
    ('a' <= c <= 'z') || ('A' <= c <= 'Z') || ('0' <= c <= '9')
  }

  /** The characters the simple variant lets through: lower-case letters, digits and `_`. */
  predicate IsSlugChar(c: char)
  {
    ('a' <= c <= 'z') || ('0' <= c <= '9') || c == '_'
  }

  // ---------------------------------------------------------------------------
  // Pro variant: every character outside [a-zA-Z0-9] becomes `_`.
  // ---------------------------------------------------------------------------

  function ProSlug(title: string): (r: string)
    ensures |r| == |title|
    ensures forall i :: 0 <= i < |r| ==> IsAsciiAlnum(r[i]) || r[i] == '_'
    ensures forall i :: 0 <= i < |r| ==> (IsAsciiAlnum(title[i]) ==> r[i] == title[i]) && (!IsAsciiAlnum(title[i]) ==> r[i] == '_')
  {
    seq(|title|, i requires 0 <= i < |title| => if IsAsciiAlnum(title[i]) then title[i] else '_')
  }

  /** Sanitising an already sanitised title changes nothing. */
  lemma ProSlugIdempotent(title: string)
    ensures ProSlug(ProSlug(title)) == ProSlug(title)
  {
  }

  function ProPdfFilename(title: string): (r: string)
    ensures |r| == |PdfPrefix| + |ProSlug(title)| + |PdfSuffix|
    ensures StartsWith(r, PdfPrefix)
    ensures r[|PdfPrefix|..|r| - |PdfSuffix|] == ProSlug(title)
    ensures r[|r| - |PdfSuffix|..] == PdfSuffix
  {
    PdfPrefix + ProSlug(title) + PdfSuffix
  }

  // ---------------------------------------------------------------------------
  // Simple variant: lower-case, each run of whitespace becomes one `_`,
  // then every character outside [a-z0-9_] is dropped.
  // ---------------------------------------------------------------------------

  /** The global replace of `/\s+/` with `_`, scanning left to right: the
      first whitespace character of a maximal run emits `_`, the rest of the
      run emits nothing, and every other character is copied. `inRun` says
      whether the previous character was whitespace. */
  function CollapseFrom(s: string, inRun: bool): (r: string)
    ensures |r| <= |s|
    ensures forall i :: 0 <= i < |r| ==> !IsSpace(r[i])
  {
    if s == [] then []
    else if IsSpace(s[0]) then (if inRun then [] else "_") + CollapseFrom(s[1..], true)
    else [s[0]] + CollapseFrom(s[1..], false)
  }

  /** `s.replace(/\s+/g, '_')` */
  function CollapseSpaces(s: string): (r: string)
    ensures |r| <= |s|
    ensures forall i :: 0 <= i < |r| ==> !IsSpace(r[i])
  {
    CollapseFrom(s, false)
  }

  /** Text without whitespace passes through unchanged. */
  lemma {:induction false} CollapseNoSpaces(s: string, inRun: bool)
    requires forall i :: 0 <= i < |s| ==> !IsSpace(s[i])
    ensures CollapseFrom(s, inRun) == s
  {
    if s != [] {
      assert forall i :: 0 <= i < |s[1..]| ==> s[1..][i] == s[i + 1];
      CollapseNoSpaces(s[1..], false);
      assert s == [s[0]] + s[1..];
    }
  }

  /** The scan of a concatenation is the scan of each part, the second resumed
      in the state the first left it in. */
  lemma {:induction false} CollapseFromConcat(a: string, b: string, inRun: bool)
    ensures CollapseFrom(a + b, inRun) == CollapseFrom(a, inRun) + CollapseFrom(b, if a == [] then inRun else IsSpace(a[|a| - 1]))
  {
    if a == [] {
      assert a + b == b;
    } else {
      assert (a + b)[0] == a[0] && (a + b)[1..] == a[1..] + b;
      CollapseFromConcat(a[1..], b, IsSpace(a[0]));
    }
  }

  /** A non-empty whitespace run emits a single `_` when entered from outside a run. */
  lemma {:induction false} CollapseRun(w: string, inRun: bool)
    requires IsBlank(w)
    ensures CollapseFrom(w, inRun) == if w == [] || inRun then [] else "_"
  {
    if w != [] {
      CollapseRun(w[1..], true);
    }
  }

  /** Text that starts with a non-space is scanned the same whether or not a run came before. */
  lemma CollapseAfterRun(b: string)
    requires b == [] || !IsSpace(b[0])
    ensures CollapseFrom(b, true) == CollapseFrom(b, false)
  {
  }

  /** Each whitespace run between non-space text becomes exactly one `_`. */
  lemma CollapseSpacesRun(a: string, w: string, b: string)
    requires a == [] || !IsSpace(a[|a| - 1])
    requires w != [] && IsBlank(w)
    requires b == [] || !IsSpace(b[0])
    ensures CollapseSpaces(a + w + b) == CollapseSpaces(a) + "_" + CollapseSpaces(b)
  {
    calc {
      CollapseSpaces(a + w + b);
    == { CollapseFromConcat(a + w, b, false); }
      CollapseFrom(a + w, false) + CollapseFrom(b, IsSpace((a + w)[|a + w| - 1]));
    == { assert (a + w)[|a + w| - 1] == w[|w| - 1]; CollapseAfterRun(b); }
      CollapseFrom(a + w, false) + CollapseFrom(b, false);
    == { CollapseFromConcat(a, w, false); CollapseRun(w, false); }
      CollapseSpaces(a) + "_" + CollapseSpaces(b);
    }
  }

  /** `s.replace(/[^a-z0-9_]/g, '')` */
  function DropDisallowed(s: string): (r: string)
  {
    Filter(IsSlugChar, s)
  }

  function SimpleSlug(title: string): (r: string)
    ensures forall i :: 0 <= i < |r| ==> IsSlugChar(r[i])
    ensures |r| <= |title|
    ensures (forall i :: 0 <= i < |title| ==> !IsSpace(title[i])) ==> r == Filter(IsSlugChar, Lower(title))
  {
    assert (forall i :: 0 <= i < |title| ==> !IsSpace(title[i])) ==> CollapseSpaces(Lower(title)) == Lower(title) by {
      if forall i :: 0 <= i < |title| ==> !IsSpace(title[i]) {
        CollapseNoSpaces(Lower(title), false);
      }
    }
    DropDisallowed(CollapseSpaces(Lower(title)))
  }

  /** Each stage of the simple slug leaves a string of slug characters
      unchanged, so sanitising twice is the same as sanitising once. */
  lemma SimpleSlugIdempotent(title: string)
    ensures SimpleSlug(SimpleSlug(title)) == SimpleSlug(title)
  {
    var s := SimpleSlug(title);
    assert Lower(s) == s;
    assert forall i :: 0 <= i < |s| ==> !IsSpace(s[i]);
    CollapseNoSpaces(s, false);
    FilterKeepsAll(IsSlugChar, s);
  }

  function SimplePdfFilename(title: string): (r: string)
    ensures |r| == |PdfPrefix| + |SimpleSlug(title)| + |PdfSuffix|
    ensures StartsWith(r, PdfPrefix)
    ensures r[|PdfPrefix|..|r| - |PdfSuffix|] == SimpleSlug(title)
    ensures r[|r| - |PdfSuffix|..] == PdfSuffix
  {
    PdfPrefix + SimpleSlug(title) + PdfSuffix
  }
}

=== FILE: pro_backup.dfy ===
/** Backups, export and import for the pro variant. Import validates the
    document and then merges it by id, saving each imported record in turn. */
module ProBackup {
  import opened Results
  import opened Content
  import opened ProStore

  const BackupVersion: string := "2.0"
  const DefaultTheme: string := "light"
  const DefaultLanguage: string := "es"

  datatype Settings = Settings(theme: string, language: string, autoBackup: bool)

  /** `getSettings`: each stored preference, or its default when the key is
      missing or empty; auto-backup stays on unless the stored value is `'false'`. */
  function GetSettings(theme: Option<string>, language: Option<string>, autoBackup: Option<string>): (s: Settings)
    ensures s.theme == DefaultTheme <==> theme.None? || theme.value == [] || theme.value == DefaultTheme
    ensures theme.Some? && theme.value != [] ==> s.theme == theme.value
    ensures s.language == DefaultLanguage <==> language.None? || language.value == [] || language.value == DefaultLanguage
    ensures language.Some? && language.value != [] ==> s.language == language.value
    ensures !s.autoBackup <==> autoBackup == Some("false")
  {
    Settings(
      if theme.Some? && theme.value != [] then theme.value else DefaultTheme,
      if language.Some? && language.value != [] then language.value else DefaultLanguage,
      autoBackup != Some("false"))
  }

  /** The backup/export document. An empty `version` or a missing `tasks`
      stands for the falsy fields an invalid file has. */
  datatype Backup = Backup(version: string, timestamp: Stamp, tasks: Option<seq<Task>>, settings: Settings)

  /** `createBackup` / `exportAllData`: a full snapshot of the store. */
  function MakeBackup(tasks: seq<Task>, now: Stamp, settings: Settings): (b: Backup)
    ensures b.version != [] && b.tasks == Some(tasks)
    ensures b.version == BackupVersion && b.timestamp == now && b.settings == settings
  {
    Backup(BackupVersion, now, Some(tasks), settings)
  }

  /** The import loop: `saveTask` folded over the imported records in order. */
  function SaveAll(tasks: seq<Task>, imported: seq<Task>): (r: seq<Task>)
    ensures |r| >= |tasks|
    ensures forall j :: 0 <= j < |tasks| ==> r[j].id == tasks[j].id
    decreases |imported|
  {
    if imported == [] then tasks
    else SaveTask(SaveAll(tasks, imported[..|imported| - 1]), imported[|imported| - 1])
  }

  /** `importData`: a document without a version or tasks is refused with no
      write; otherwise its tasks are merged into the store by id. */
  function ImportData(tasks: seq<Task>, doc: Backup): (r: Result<seq<Task>, Rejection>)
    ensures r.Failure? <==> doc.version == [] || doc.tasks.None?
    ensures r.Failure? ==> r.error == InvalidFormat
    ensures r.Success? ==> |r.value| >= |tasks|
    ensures r.Success? ==> forall j :: 0 <= j < |tasks| ==> r.value[j].id == tasks[j].id
    ensures r.Success? ==> forall id ::
              Find(r.value, id) == if LastWithId(doc.tasks.value, id).Some? then LastWithId(doc.tasks.value, id) else Find(tasks, id)
    ensures r.Success? ==> forall j ::
              0 <= j < |tasks| && (forall i :: 0 <= i < |doc.tasks.value| ==> doc.tasks.value[i].id != tasks[j].id) ==> r.value[j] == tasks[j]
  {
    if doc.version == [] || doc.tasks.None? then Failure(InvalidFormat)
    else
      var imported := doc.tasks.value;
      assert forall id :: Find(SaveAll(tasks, imported), id) == if LastWithId(imported, id).Some? then LastWithId(imported, id) else Find(tasks, id) by {
        forall id ensures Find(SaveAll(tasks, imported), id) == if LastWithId(imported, id).Some? then LastWithId(imported, id) else Find(tasks, id) {
          ImportLastWins(tasks, imported, id);
        }
      }
      assert forall j :: 0 <= j < |tasks| && (forall i :: 0 <= i < |imported| ==> imported[i].id != tasks[j].id) ==> SaveAll(tasks, imported)[j] == tasks[j] by {
        forall j | 0 <= j < |tasks| && (forall i :: 0 <= i < |imported| ==> imported[i].id != tasks[j].id) ensures SaveAll(tasks, imported)[j] == tasks[j] {
          ImportKeepsUntouched(tasks, imported, j);
        }
      }
      Success(SaveAll(tasks, imported))
  }

  /** The last imported record carrying the id, if any. */
  function LastWithId(imported: seq<Task>, id: TaskId): (r: Option<Task>)
    ensures r.Some? ==> r.value in imported && r.value.id == id
    ensures r.Some? ==> exists i :: 0 <= i < |imported| && imported[i] == r.value && forall j :: i < j < |imported| ==> imported[j].id != id
    ensures r.None? ==> forall i :: 0 <= i < |imported| ==> imported[i].id != id
    decreases |imported|
  {
    if imported == [] then None
    else if imported[|imported| - 1].id == id then Some(imported[|imported| - 1])
    else LastWithId(imported[..|imported| - 1], id)
  }

  /** After an import, a lookup finds the last imported record with the id, or
      what the store held before when the import did not mention the id. */
  lemma {:induction false} ImportLastWins(tasks: seq<Task>, imported: seq<Task>, id: TaskId)
    ensures Find(SaveAll(tasks, imported), id) == if LastWithId(imported, id).Some? then LastWithId(imported, id) else Find(tasks, id)
    decreases |imported|
  {
    if imported != [] {
      var prefix := imported[..|imported| - 1];
      ImportLastWins(tasks, prefix, id);
      SaveThenFind(SaveAll(tasks, prefix), imported[|imported| - 1], id);
    }
  }

  /** Records whose id the import does not mention stay where they were, unchanged. */
  lemma {:induction false} ImportKeepsUntouched(tasks: seq<Task>, imported: seq<Task>, j: nat)
    requires j < |tasks|
    requires forall i :: 0 <= i < |imported| ==> imported[i].id != tasks[j].id
    ensures SaveAll(tasks, imported)[j] == tasks[j]
    decreases |imported|
  {
    if imported != [] {
      var prefix := imported[..|imported| - 1];
      ImportKeepsUntouched(tasks, prefix, j);
      var before := SaveAll(tasks, prefix);
      var t := imported[|imported| - 1];
      if HasId(before, t.id) {
        assert IndexOf(before, t.id) != j;
      }
    }
  }

  /** Importing a store's own records back into it changes nothing, when ids are unique. */
  lemma {:induction false} ImportOwnRecords(tasks: seq<Task>, n: nat)
    requires UniqueIds(tasks)
    requires n <= |tasks|
    ensures SaveAll(tasks, tasks[..n]) == tasks
  {
    if n > 0 {
      ImportOwnRecords(tasks, n - 1);
      assert tasks[..n][..n - 1] == tasks[..n - 1];
      IndexOfUnique(tasks, tasks[n - 1].id, n - 1);
    }
  }

  /** Importing a store's records into an empty store rebuilds it, when ids are unique. */
  lemma {:induction false} ImportIntoEmpty(tasks: seq<Task>, n: nat)
    requires UniqueIds(tasks)
    requires n <= |tasks|
    ensures SaveAll([], tasks[..n]) == tasks[..n]
  {
    if n > 0 {
      ImportIntoEmpty(tasks, n - 1);
      assert tasks[..n][..n - 1] == tasks[..n - 1];
      IndexOfUnique(tasks[..n - 1], tasks[n - 1].id, n - 1);
      assert tasks[..n - 1] + [tasks[n - 1]] == tasks[..n];
    }
  }

  /** Export then import: the backup of a store with unique ids imports back as
      the same store, both over the live store and over an empty one. */
  lemma BackupRoundTrip(tasks: seq<Task>, now: Stamp, settings: Settings)
    requires UniqueIds(tasks)
    ensures ImportData(tasks, MakeBackup(tasks, now, settings)) == Success(tasks)
    ensures ImportData([], MakeBackup(tasks, now, settings)) == Success(tasks)
  {
    ImportOwnRecords(tasks, |tasks|);
    ImportIntoEmpty(tasks, |tasks|);
    assert tasks[..|tasks|] == tasks;
  }
}

=== FILE: pro_query.dfy ===
/** The pro variant's query engine (`searchTasks`): with the indexed store, a
    four-way conjunctive filter followed by a three-mode sort; without it, a
    plain title-and-notes search over the flat store in storage order. */
module ProQuery {
  import opened Strings
  import opened Seqs
  import opened Content
  import opened ProStore

  /** The filter object passed to `searchTasks`. Each field is a string whose
      empty value stands for JavaScript's falsy "no filter" (`undefined` or `''`). */
  datatype Filters = Filters(status: string, priority: string, category: string, sortBy: string)

  const AllStatuses: string := "all"

  predicate MatchesQuery(t: Task, query: string)
  {
    || query == []
    || Contains(Lower(t.title), Lower(query))
    || Contains(Lower(t.category), Lower(query))
  }

  /** Only the status filter honours the `'all'` sentinel. */
  predicate MatchesStatus(t: Task, status: string)
  {
    status == [] || status == AllStatuses || t.status == status
  }

  predicate MatchesPriority(t: Task, priority: string)
  {
    priority == [] || t.priority == priority
  }

  predicate MatchesCategory(t: Task, category: string)
  {
    category == [] || t.category == category
  }

  predicate Matches(t: Task, query: string, f: Filters)
  {
    MatchesQuery(t, query) && MatchesStatus(t, f.status) && MatchesPriority(t, f.priority) && MatchesCategory(t, f.category)
  }

  /** The `priorityOrder` table with its `|| 0` default: any other ordinary
      string ranks 0. Names inherited from `Object.prototype` are not covered. */
  function Rank(priority: string): (r: nat)
    ensures priority == "high" ==> r == 3
    ensures priority == "medium" ==> r == 2
    ensures priority == "low" ==> r == 1
    ensures r == 0 <==> priority != "high" && priority != "medium" && priority != "low"
  {
    if priority == "high" then 3
    else if priority == "medium" then 2
    else if priority == "low" then 1
    else 0
  }

  datatype SortKey = ByTitle | ByPriority | ByDate

  /** `'title'` and `'priority'` select their orders; every other value sorts by date. */
  function SortKeyOf(sortBy: string): (r: SortKey)
    ensures r == ByTitle <==> sortBy == "title"
    ensures r == ByPriority <==> sortBy == "priority"
    ensures r == ByDate <==> sortBy != "title" && sortBy != "priority"
  {
    if sortBy == "title" then ByTitle
    else if sortBy == "priority" then ByPriority
    else ByDate
  }

  /** `a` may precede `b`: ascending title, non-increasing rank, or newest first. */
  predicate InOrder(key: SortKey, a: Task, b: Task)
  {
    match key
    case ByTitle => LexLe(a.title, b.title)
    case ByPriority => Rank(a.priority) >= Rank(b.priority)
    case ByDate => a.createdAt >= b.createdAt
  }

  predicate Sorted(key: SortKey, s: seq<Task>)
  {
    forall i, j :: 0 <= i < j < |s| ==> InOrder(key, s[i], s[j])
  }

  lemma InOrderTotal(key: SortKey, a: Task, b: Task)
    ensures InOrder(key, a, b) || InOrder(key, b, a)
  {
    if key == ByTitle {
      LexLeTotal(a.title, b.title);
    }
  }

  lemma InOrderTransitive(key: SortKey, a: Task, b: Task, c: Task)
    requires InOrder(key, a, b) && InOrder(key, b, c)
    ensures InOrder(key, a, c)
  {
    if key == ByTitle {
      LexLeTransitive(a.title, b.title, c.title);
    }
  }

  /** Insert `x` before the first element it may precede, so that it stays
      ahead of the equal elements that came after it in the input. */
  function Insert(key: SortKey, x: Task, s: seq<Task>): (r: seq<Task>)
    requires Sorted(key, s)
    ensures multiset(r) == multiset(s) + multiset{x}
    ensures |r| == |s| + 1
    ensures Sorted(key, r)
  {
    if s == [] then [x]
    else if InOrder(key, x, s[0]) then
      assert forall j :: 0 <= j < |s| ==> InOrder(key, x, s[j]) by {
        forall j | 0 <= j < |s| ensures InOrder(key, x, s[j]) {
          if j > 0 {
            InOrderTransitive(key, x, s[0], s[j]);
          }
        }
      }
      [x] + s
    else
      assert s == [s[0]] + s[1..];
      InOrderTotal(key, x, s[0]);
      var rest := Insert(key, x, s[1..]);
      assert forall j :: 0 <= j < |rest| ==> InOrder(key, s[0], rest[j]) by {
        forall j | 0 <= j < |rest| ensures InOrder(key, s[0], rest[j]) {
          assert rest[j] in multiset(rest);
          assert rest[j] == x || rest[j] in multiset(s[1..]);
          if rest[j] != x {
            var i :| 0 <= i < |s[1..]| && s[1..][i] == rest[j];
            assert s[i + 1] == rest[j];
          }
        }
      }
      [s[0]] + rest
  }

  /** `Array.prototype.sort` with the mode's comparator: a sorted permutation of the input. */
  function SortTasks(key: SortKey, s: seq<Task>): (r: seq<Task>)
    ensures multiset(r) == multiset(s)
    ensures |r| == |s|
    ensures Sorted(key, r)
  {
    if s == [] then []
    else
      assert s == [s[0]] + s[1..];
      Insert(key, s[0], SortTasks(key, s[1..]))
  }

  /** Two tasks the comparator cannot tell apart. */
  predicate Tied(key: SortKey, a: Task, b: Task)
  {
    InOrder(key, a, b) && InOrder(key, b, a)
  }

  /** The subsequence of `s` tied with `t`, in order. */
  function TiedWith(key: SortKey, t: Task, s: seq<Task>): seq<Task>
  {
    if s == [] then []
    else (if Tied(key, t, s[0]) then [s[0]] else []) + TiedWith(key, t, s[1..])
  }

  /** `TiedWith` of a non-empty sequence, split at its head. */
  lemma TiedWithCons(key: SortKey, t: Task, a: Task, s: seq<Task>)
    ensures TiedWith(key, t, [a] + s) == (if Tied(key, t, a) then [a] else []) + TiedWith(key, t, s)
  {
    assert ([a] + s)[0] == a && ([a] + s)[1..] == s;
  }

  /** Putting a head `a` back in front of the tied run: `x` is never tied with a
      head it had to pass, so the two can trade places. */
  lemma PassHead(key: SortKey, t: Task, x: Task, a: Task, rest: seq<Task>, s: seq<Task>)
    requires !InOrder(key, x, a)
    requires TiedWith(key, t, rest) == (if Tied(key, t, x) then [x] else []) + TiedWith(key, t, s)
    ensures TiedWith(key, t, [a] + rest) == (if Tied(key, t, x) then [x] else []) + TiedWith(key, t, [a] + s)
  {
    TiedWithCons(key, t, a, rest);
    TiedWithCons(key, t, a, s);
    if Tied(key, t, x) && Tied(key, t, a) {
      InOrderTransitive(key, x, t, a);
    }
  }

  /** Inserting `x` puts it ahead of every element it is tied with. */
  lemma {:induction false} InsertStable(key: SortKey, x: Task, s: seq<Task>, t: Task)
    requires Sorted(key, s)
    ensures TiedWith(key, t, Insert(key, x, s)) == (if Tied(key, t, x) then [x] else []) + TiedWith(key, t, s)
  {
    if s == [] {
      TiedWithCons(key, t, x, []);
    } else if InOrder(key, x, s[0]) {
      TiedWithCons(key, t, x, s);
    } else {
      InsertStable(key, x, s[1..], t);
      assert Insert(key, x, s) == [s[0]] + Insert(key, x, s[1..]);
      PassHead(key, t, x, s[0], Insert(key, x, s[1..]), s[1..]);
      assert [s[0]] + s[1..] == s;
    }
  }

  /** The sort is stable: the tasks tied with any task keep their input order. */
  lemma {:induction false} SortStable(key: SortKey, s: seq<Task>, t: Task)
    ensures TiedWith(key, t, SortTasks(key, s)) == TiedWith(key, t, s)
  {
    if s != [] {
      SortStable(key, s[1..], t);
      InsertStable(key, s[0], SortTasks(key, s[1..]), t);
    }
  }

  /** The store branch of `searchTasks`: keep the tasks meeting all four
      conditions, then sort by the requested mode. */
  function SearchIndexed(tasks: seq<Task>, query: string, f: Filters): (r: seq<Task>)
    ensures forall t :: t in r <==>
              && t in tasks
              && (query == [] || Contains(Lower(t.title), Lower(query)) || Contains(Lower(t.category), Lower(query)))
              && (f.status == [] || f.status == "all" || t.status == f.status)
              && (f.priority == [] || t.priority == f.priority)
              && (f.category == [] || t.category == f.category)
    ensures multiset(r) <= multiset(tasks)
    ensures forall t :: t in tasks && Matches(t, query, f) ==> multiset(r)[t] == multiset(tasks)[t]
    ensures Sorted(SortKeyOf(f.sortBy), r)
  {
    var kept := Filter((t: Task) => Matches(t, query, f), tasks);
    FilterMultiplicity(query, f, tasks);
    SortTasks(SortKeyOf(f.sortBy), kept)
  }

  /** `Array.prototype.sort` is stable: tasks the sort mode cannot tell apart
      keep the relative order they had among the matches in the store. */
  lemma SearchIndexedStable(tasks: seq<Task>, query: string, f: Filters, t: Task)
    ensures TiedWith(SortKeyOf(f.sortBy), t, SearchIndexed(tasks, query, f))
         == TiedWith(SortKeyOf(f.sortBy), t, Filter((x: Task) => Matches(x, query, f), tasks))
  {
    SortStable(SortKeyOf(f.sortBy), Filter((x: Task) => Matches(x, query, f), tasks), t);
  }

  /** Filtering keeps every matching task as many times as it is stored. */
  lemma {:induction false} FilterMultiplicity(query: string, f: Filters, tasks: seq<Task>)
    ensures forall t :: t in tasks && Matches(t, query, f) ==>
              multiset(Filter((t: Task) => Matches(t, query, f), tasks))[t] == multiset(tasks)[t]
    ensures forall t :: t in Filter((t: Task) => Matches(t, query, f), tasks) ==> Matches(t, query, f)
  {
    if tasks != [] {
      FilterMultiplicity(query, f, tasks[1..]);
      assert tasks == [tasks[0]] + tasks[1..];
    }
  }

  /** A text item whose lower-cased body includes the lower-cased query. */
  predicate NoteMentions(c: ContentItem, query: string)
  {
    c.kind == Text && Contains(Lower(c.content), Lower(query))
  }

  predicate MentionedIn(t: Task, query: string)
  {
    || Contains(Lower(t.title), Lower(query))
    || exists i :: 0 <= i < |t.content| && NoteMentions(t.content[i], query)
  }

  /** The flat-store branch of `searchTasks`: title or text-note search only,
      in storage order, ignoring every filter and the sort mode. */
  function SearchFallback(tasks: seq<Task>, query: string): (r: seq<Task>)
    ensures forall i :: 0 <= i < |r| ==> r[i] in tasks && MentionedIn(r[i], query)
    ensures forall i :: 0 <= i < |tasks| && MentionedIn(tasks[i], query) ==> tasks[i] in r
    ensures forall t :: multiset(r)[t] == if MentionedIn(t, query) then multiset(tasks)[t] else 0
  {
    Filter((t: Task) => MentionedIn(t, query), tasks)
  }

  /** The fallback keeps storage order: searching a concatenation is searching
      each part and concatenating the answers. */
  lemma SearchFallbackConcat(a: seq<Task>, b: seq<Task>, query: string)
    ensures SearchFallback(a + b, query) == SearchFallback(a, query) + SearchFallback(b, query)
  {
    FilterConcat((t: Task) => MentionedIn(t, query), a, b);
  }

  /** With an empty query the fallback search returns the whole store, unchanged. */
  lemma FallbackEmptyQueryKeepsAll(tasks: seq<Task>)
    ensures SearchFallback(tasks, []) == tasks
  {
    forall i | 0 <= i < |tasks| ensures MentionedIn(tasks[i], []) {
      ContainsEmpty(Lower(tasks[i].title));
    }
    FilterKeepsAll((t: Task) => MentionedIn(t, []), tasks);
  }

  /** `searchTasks`: the store branch when the indexed database opened, the
      fallback otherwise. The first honours the query, the filters and the sort
      mode; the second only the query, searching titles and notes and keeping
      storage order. */
  function SearchTasks(indexed: bool, tasks: seq<Task>, query: string, f: Filters): (r: seq<Task>)
    ensures indexed ==> (forall t :: t in r <==> t in tasks && Matches(t, query, f)) && Sorted(SortKeyOf(f.sortBy), r)
    ensures !indexed ==> forall t :: t in r <==> t in tasks && MentionedIn(t, query)
    ensures !indexed ==> forall t :: multiset(r)[t] == if MentionedIn(t, query) then multiset(tasks)[t] else 0
  {
    if indexed then SearchIndexed(tasks, query, f) else SearchFallback(tasks, query)
  }

  /** Without the indexed database the filters and the sort mode have no effect. */
  lemma FallbackIgnoresFilters(tasks: seq<Task>, query: string, f: Filters, g: Filters)
    ensures SearchTasks(false, tasks, query, f) == SearchTasks(false, tasks, query, g)
  {
  }

  /** With no query and no filters either branch lists every stored task, each
      as many times as it is stored. */
  lemma UnfilteredListsEverything(indexed: bool, tasks: seq<Task>, sortBy: string)
    ensures multiset(SearchTasks(indexed, tasks, [], Filters([], [], [], sortBy))) == multiset(tasks)
  {
    var f := Filters([], [], [], sortBy);
    if indexed {
      FilterKeepsAll((t: Task) => Matches(t, [], f), tasks);
    } else {
      FallbackEmptyQueryKeepsAll(tasks);
    }
  }

  /** The counters above the list: total, completed and active. */
  datatype Counters = Counters(total: nat, completed: nat, active: nat)

  function StatusIs(status: string): Task -> bool
  {
    (t: Task) => t.status == status
  }

  /** `updateTaskCounter`: the counters never exceed the total, and add up to
      it exactly when every task is either active or completed. */
  function TaskCounters(tasks: seq<Task>): (r: Counters)
    ensures r.total == |tasks|
    ensures r.completed == |Filter((t: Task) => t.status == "completed", tasks)|
    ensures r.active == |Filter((t: Task) => t.status == "active", tasks)|
    ensures r.completed + r.active <= r.total
    ensures r.completed + r.active == r.total <==>
              forall i :: 0 <= i < |tasks| ==> tasks[i].status == "completed" || tasks[i].status == "active"
  {
    CountDisjoint(StatusIs("completed"), StatusIs("active"), tasks);
    Counters(|tasks|, Count(StatusIs("completed"), tasks), Count(StatusIs("active"), tasks))
  }
}

=== FILE: pro_store.dfy ===
/** The pro variant's flat store: the whole task list kept under one
    `localStorage` key, used whenever the indexed database is unavailable.
    `saveTask` is an upsert by id and `deleteTask` a filter by id. */
module ProStore {
  import opened Results
  import opened Seqs
  import opened Content

  type TaskId = int

  /** A pro task record. An absent `category` or `priority` (possible only in
      imported data) is represented by the empty string: every comparison the
      core makes treats the two alike. */
  datatype Task = Task(
    id: TaskId,
    title: string,
    category: string,
    priority: string,
    status: string,
    content: seq<ContentItem>,
    createdAt: Stamp,
    updatedAt: Stamp)

  /** The `findIndex` predicate `x => x.id === id`. */
  function IdIs(id: TaskId): Task -> bool
  {
    (x: Task) => x.id == id
  }

  /** `tasks.findIndex(t => t.id === id)`, with `|tasks|` for "not found". */
  function IndexOf(tasks: seq<Task>, id: TaskId): (k: nat)
    ensures k <= |tasks|
    ensures k < |tasks| ==> tasks[k].id == id
    ensures forall j :: 0 <= j < k ==> tasks[j].id != id
  {
    FirstIndex(IdIs(id), tasks)
  }

  /** Any position meeting the contract of `IndexOf` is the one it returns. */
  lemma IndexOfUnique(tasks: seq<Task>, id: TaskId, k: nat)
    requires k <= |tasks|
    requires k < |tasks| ==> tasks[k].id == id
    requires forall j :: 0 <= j < k ==> tasks[j].id != id
    ensures IndexOf(tasks, id) == k
  {
    FirstIndexUnique(IdIs(id), tasks, k);
  }

  predicate HasId(tasks: seq<Task>, id: TaskId)
  {
    exists j :: 0 <= j < |tasks| && tasks[j].id == id
  }

  /** A record with the id exists exactly when `findIndex` finds one. */
  lemma HasIdIndexOf(tasks: seq<Task>, id: TaskId)
    ensures HasId(tasks, id) <==> IndexOf(tasks, id) < |tasks|
  {
  }

  /** `tasks.find(t => t.id === id)` */
  function Find(tasks: seq<Task>, id: TaskId): Option<Task>
  {
    var k := IndexOf(tasks, id);
    if k < |tasks| then Some(tasks[k]) else None
  }

  /** The store's invariant: no two records share an id. */
  predicate UniqueIds(tasks: seq<Task>)
  {
    forall i, j :: 0 <= i < j < |tasks| ==> tasks[i].id != tasks[j].id
  }

  /** `loadTasksFromStorage`: the stored list, or the empty list when the key was never written. */
  function LoadTasksFromStorage(saved: Option<seq<Task>>): (r: seq<Task>)
    ensures saved.None? ==> r == []
    ensures saved.Some? ==> r == saved.value
  {
    if saved.Some? then saved.value else []
  }

  /** `saveTask` on the flat store: replace the first record with the same id in
      place, or append when there is none. */
  function SaveTask(tasks: seq<Task>, task: Task): (r: seq<Task>)
    ensures HasId(tasks, task.id) ==>
              && |r| == |tasks|
              && r[IndexOf(tasks, task.id)] == task
              && forall j :: 0 <= j < |r| && j != IndexOf(tasks, task.id) ==> r[j] == tasks[j]
    ensures !HasId(tasks, task.id) ==> r == tasks + [task]
    ensures HasId(r, task.id)
    ensures forall j :: 0 <= j < |tasks| ==> r[j].id == tasks[j].id
  {
    var k := IndexOf(tasks, task.id);
    if k < |tasks| then
      var r := tasks[k := task];
      IndexOfUnique(r, task.id, k);
      r
    else
      var r := tasks + [task];
      IndexOfUnique(r, task.id, |tasks|);
      r
  }

  /** Read after write: the saved record is what a lookup of its id now finds,
      and a lookup of any other id finds what it found before. */
  lemma SaveThenFind(tasks: seq<Task>, task: Task, id: TaskId)
    ensures Find(SaveTask(tasks, task), id) == if id == task.id then Some(task) else Find(tasks, id)
  {
    var r := SaveTask(tasks, task);
    if id != task.id {
      var m := IndexOf(tasks, id);
      if m < |tasks| {
        IndexOfUnique(r, id, m);
      } else {
        IndexOfUnique(r, id, |r|);
      }
    } else {
      var k := IndexOf(tasks, task.id);
      IndexOfUnique(r, id, if k < |tasks| then k else |tasks|);
    }
  }

  /** Saving the same record twice leaves the store as saving it once. */
  lemma SaveIdempotent(tasks: seq<Task>, task: Task)
    ensures SaveTask(SaveTask(tasks, task), task) == SaveTask(tasks, task)
  {
    var r := SaveTask(tasks, task);
    var k := IndexOf(tasks, task.id);
    IndexOfUnique(r, task.id, k);
  }

  /** Saving keeps ids unique. */
  lemma SaveKeepsUniqueIds(tasks: seq<Task>, task: Task)
    requires UniqueIds(tasks)
    ensures UniqueIds(SaveTask(tasks, task))
  {
  }

  /** Saving into a store that was never written yields the one-record list. */
  lemma SaveIntoEmptyStorage(task: Task)
    ensures SaveTask(LoadTasksFromStorage(None), task) == [task]
  {
  }

  /** The `filter` predicate `t => t.id !== id`. */
  function IdIsNot(id: TaskId): Task -> bool
  {
    (x: Task) => x.id != id
  }

  /** `deleteTask` on the flat store: keep every record whose id differs, in order. */
  function DeleteTask(tasks: seq<Task>, id: TaskId): (r: seq<Task>)
    ensures |r| <= |tasks|
    ensures forall j :: 0 <= j < |r| ==> r[j].id != id && r[j] in tasks
    ensures forall j :: 0 <= j < |tasks| && tasks[j].id != id ==> tasks[j] in r
    ensures !HasId(tasks, id) ==> r == tasks
    ensures HasId(tasks, id) ==> |r| < |tasks|
  {
    if tasks == [] then []
    else
      var rest := DeleteTask(tasks[1..], id);
      assert HasId(tasks, id) && tasks[0].id != id ==> HasId(tasks[1..], id) by {
        if HasId(tasks, id) && tasks[0].id != id {
          var j :| 0 <= j < |tasks| && tasks[j].id == id;
          assert tasks[1..][j - 1] == tasks[j];
        }
      }
      if tasks[0].id == id then rest else [tasks[0]] + rest
  }

  /** The recursive delete is `tasks.filter(t => t.id !== id)`: the records
      with other ids, in their stored order and multiplicity. */
  lemma {:induction false} DeleteTaskIsFilter(tasks: seq<Task>, id: TaskId)
    ensures DeleteTask(tasks, id) == Filter(IdIsNot(id), tasks)
  {
    if tasks != [] {
      DeleteTaskIsFilter(tasks[1..], id);
    }
  }

  /** After a delete no lookup finds the id. */
  lemma DeleteThenFindGone(tasks: seq<Task>, id: TaskId)
    ensures Find(DeleteTask(tasks, id), id) == None
  {
    var r := DeleteTask(tasks, id);
    IndexOfUnique(r, id, |r|);
  }

  /** A lookup steps over a head record with a different id. */
  lemma FindSkipsHead(tasks: seq<Task>, id: TaskId)
    requires tasks != [] && tasks[0].id != id
    ensures Find(tasks, id) == Find(tasks[1..], id)
  {
  }

  /** After a delete, lookups of every other id find what they found before. */
  lemma {:induction false} DeleteThenFindOther(tasks: seq<Task>, id: TaskId, other: TaskId)
    requires other != id
    ensures Find(DeleteTask(tasks, id), other) == Find(tasks, other)
  {
    if tasks != [] {
      DeleteThenFindOther(tasks[1..], id, other);
      var rest := DeleteTask(tasks[1..], id);
      if tasks[0].id == id {
        FindSkipsHead(tasks, other);
      } else if tasks[0].id != other {
        var r := [tasks[0]] + rest;
        assert r[1..] == rest;
        FindSkipsHead(tasks, other);
        FindSkipsHead(r, other);
      }
    }
  }

  /** Deleting keeps ids unique. */
  lemma {:induction false} DeleteKeepsUniqueIds(tasks: seq<Task>, id: TaskId)
    requires UniqueIds(tasks)
    ensures UniqueIds(DeleteTask(tasks, id))
  {
    if tasks != [] {
      var tail := tasks[1..];
      assert UniqueIds(tail) by {
        forall i, j | 0 <= i < j < |tail| ensures tail[i].id != tail[j].id {
          assert tail[i] == tasks[i + 1] && tail[j] == tasks[j + 1];
        }
      }
      DeleteKeepsUniqueIds(tail, id);
      var rest := DeleteTask(tail, id);
      if tasks[0].id != id {
        forall j | 0 <= j < |rest| ensures rest[j].id != tasks[0].id {
          assert rest[j] in tail;
          var i :| 0 <= i < |tail| && tail[i] == rest[j];
          assert tasks[i + 1] == rest[j];
        }
        assert DeleteTask(tasks, id) == [tasks[0]] + rest;
      }
    }
  }
}

=== FILE: pro_tasks.dfy ===
/** The pro variant's mutators. Each re-reads the task list, changes one
    record, and writes it back through `SaveTask`; the clock, fresh ids and the
    user's confirmation answers are parameters. */
module ProTasks {
  import opened Results
  import opened Strings
  import opened Seqs
  import opened Content
  import opened ProStore
  import opened ProQuery

  const DefaultCategory: string := "General"
  const DefaultPriority: string := "medium"
  const Active: string := "active"
  const Completed: string := "completed"
  const CopySuffix: string := " (Copia)"

  /** The category field after trimming, with the default for an empty one. */
  function CategoryOrDefault(input: string): string
  {
    var c := Trim(input);
    if c == [] then DefaultCategory else c
  }

  /** The priority select's value (not trimmed), with the default for an empty one. */
  function PriorityOrDefault(input: string): string
  {
    if input == [] then DefaultPriority else input
  }

  /** `createTask`: a blank title is refused with no write; otherwise a new
      active, empty task with the trimmed title and defaulted fields is saved. */
  function CreateTask(tasks: seq<Task>, title: string, category: string, priority: string, freshId: TaskId, now: Stamp): (r: Result<seq<Task>, Rejection>)
    ensures r.Failure? <==> IsBlank(title)
    ensures r.Failure? ==> r.error == TitleRequired
    ensures r.Success? && !HasId(tasks, freshId) ==>
              && |r.value| == |tasks| + 1
              && r.value[..|tasks|] == tasks
              && var t := r.value[|tasks|];
              && t.id == freshId
              && t.title == Trim(title) && t.title != []
              && t.category == (if IsBlank(category) then DefaultCategory else Trim(category))
              && t.priority == (if priority == [] then DefaultPriority else priority)
              && t.status == Active
              && t.content == []
              && t.createdAt == now && t.updatedAt == now
    ensures r.Success? && HasId(tasks, freshId) ==>
              r.value == tasks[IndexOf(tasks, freshId) := Task(freshId, Trim(title), CategoryOrDefault(category), PriorityOrDefault(priority), Active, [], now, now)]
  {
    var trimmed := Trim(title);
    if trimmed == [] then Failure(TitleRequired)
    else
      var task := Task(freshId, trimmed, CategoryOrDefault(category), PriorityOrDefault(priority), Active, [], now, now);
      assert tasks + [task] == SaveTask(tasks, task) ==> (tasks + [task])[..|tasks|] == tasks;
      Success(SaveTask(tasks, task))
  }

  /** In a store with unique ids, a created task shows up in the unfiltered
      list exactly once, even when its clock-derived id is already taken. */
  lemma CreatedTaskListedOnce(indexed: bool, tasks: seq<Task>, title: string, category: string, priority: string, freshId: TaskId, now: Stamp, sortBy: string)
    requires UniqueIds(tasks)
    requires !IsBlank(title)
    ensures var r := CreateTask(tasks, title, category, priority, freshId, now);
            var created := Task(freshId, Trim(title), CategoryOrDefault(category), PriorityOrDefault(priority), Active, [], now, now);
            && r.Success?
            && multiset(SearchTasks(indexed, r.value, [], Filters([], [], [], sortBy)))[created] == 1
  {
    var created := Task(freshId, Trim(title), CategoryOrDefault(category), PriorityOrDefault(priority), Active, [], now, now);
    var r := CreateTask(tasks, title, category, priority, freshId, now).value;
    assert r == SaveTask(tasks, created);
    UnfilteredListsEverything(indexed, r, sortBy);
    var k := IndexOf(tasks, freshId);
    assert k < |r| && r[k] == created;
    forall j | 0 <= j < |r| && j != k
      ensures r[j] != created
    {
      if j < |tasks| {
        assert r[j] == tasks[j];
        if k < |tasks| {
          assert tasks[k].id == freshId;
        }
      }
    }
    OccursOnce(r, created, k);
  }

  /** The record `updateExistingTask` writes back. */
  function Edited(t: Task, title: string, category: string, priority: string, now: Stamp): Task
  {
    t.(title := Trim(title), category := CategoryOrDefault(category), priority := PriorityOrDefault(priority), updatedAt := now)
  }

  /** `updateExistingTask`: the title is checked first; a found task gets the
      new title, category and priority and keeps its id, status, content and
      creation time; nothing else in the store changes. */
  function UpdateExistingTask(tasks: seq<Task>, id: TaskId, title: string, category: string, priority: string, now: Stamp): (r: Result<seq<Task>, Rejection>)
    ensures r.Failure? <==> IsBlank(title)
    ensures r.Failure? ==> r.error == TitleRequired
    ensures r.Success? ==> |r.value| == |tasks|
    ensures r.Success? && !HasId(tasks, id) ==> r.value == tasks
    ensures r.Success? && HasId(tasks, id) ==>
              var k := IndexOf(tasks, id);
              && r.value[k].id == tasks[k].id
              && r.value[k].status == tasks[k].status
              && r.value[k].content == tasks[k].content
              && r.value[k].createdAt == tasks[k].createdAt
              && r.value[k].title == Trim(title)
              && r.value[k].category == (if IsBlank(category) then DefaultCategory else Trim(category))
              && r.value[k].priority == (if priority == [] then DefaultPriority else priority)
              && r.value[k].updatedAt == now
              && forall j :: 0 <= j < |tasks| && j != k ==> r.value[j] == tasks[j]
  {
    if Trim(title) == [] then Failure(TitleRequired)
    else
      match Find(tasks, id)
      case None => Success(tasks)
      case Some(t) => Success(SaveTask(tasks, Edited(t, title, category, priority, now)))
  }

  /** The status toggle: `'completed'` reopens, any other status completes. */
  function ToggledStatus(status: string): (r: string)
    ensures r == Active || r == Completed
    ensures r == Active <==> status == Completed
  {
    if status == Completed then Active else Completed
  }

  /** Toggling twice restores exactly the statuses the toggle can produce. */
  lemma ToggledStatusTwice(status: string)
    ensures ToggledStatus(ToggledStatus(status)) == status <==> status == Active || status == Completed
  {
  }

  /** `toggleTaskStatus`: only the found record's status and `updatedAt` change;
      an absent id changes nothing. */
  function ToggleTaskStatus(tasks: seq<Task>, id: TaskId, now: Stamp): (r: seq<Task>)
    ensures |r| == |tasks|
    ensures !HasId(tasks, id) ==> r == tasks
    ensures HasId(tasks, id) ==>
              var k := IndexOf(tasks, id);
              && r[k] == tasks[k].(status := ToggledStatus(tasks[k].status), updatedAt := now)
              && forall j :: 0 <= j < |tasks| && j != k ==> r[j] == tasks[j]
  {
    match Find(tasks, id)
    case None => tasks
    case Some(t) => SaveTask(tasks, t.(status := ToggledStatus(t.status), updatedAt := now))
  }

  /** Toggling twice restores the store, apart from the second toggle's
      `updatedAt`, whenever the task was active or completed. */
  lemma ToggleTwice(tasks: seq<Task>, id: TaskId, now1: Stamp, now2: Stamp)
    requires HasId(tasks, id)
    requires tasks[IndexOf(tasks, id)].status in {Active, Completed}
    ensures var k := IndexOf(tasks, id);
            ToggleTaskStatus(ToggleTaskStatus(tasks, id, now1), id, now2) == tasks[k := tasks[k].(updatedAt := now2)]
  {
    var k := IndexOf(tasks, id);
    var once := ToggleTaskStatus(tasks, id, now1);
    IndexOfUnique(once, id, k);
    ToggledStatusTwice(tasks[k].status);
  }

  /** `deleteTaskConfirm`: the record is removed only when it exists and the user confirms. */
  function DeleteTaskConfirm(tasks: seq<Task>, id: TaskId, confirmed: bool): (r: seq<Task>)
    ensures !(HasId(tasks, id) && confirmed) ==> r == tasks
    ensures HasId(tasks, id) && confirmed ==> r == Filter(IdIsNot(id), tasks) && !HasId(r, id) && |r| < |tasks|
    ensures forall j :: 0 <= j < |tasks| && tasks[j].id != id ==> tasks[j] in r
  {
    DeleteTaskIsFilter(tasks, id);
    if HasId(tasks, id) && confirmed then DeleteTask(tasks, id) else tasks
  }

  /** `duplicateTask`: the copy spreads the original, so it shares its content
      items (ids included); it gets the fresh id, the suffixed title, status
      active and new timestamps, and is saved like any other record. */
  function DuplicateTask(tasks: seq<Task>, id: TaskId, freshId: TaskId, now: Stamp): (r: seq<Task>)
    ensures !HasId(tasks, id) ==> r == tasks
    ensures HasId(tasks, id) && !HasId(tasks, freshId) ==>
              && |r| == |tasks| + 1
              && r[..|tasks|] == tasks
              && var orig := tasks[IndexOf(tasks, id)];
              && var copy := r[|tasks|];
              && copy.id == freshId
              && copy.title == orig.title + CopySuffix
              && copy.status == Active
              && copy.category == orig.category
              && copy.priority == orig.priority
              && copy.content == orig.content
              && copy.createdAt == now && copy.updatedAt == now
    ensures HasId(tasks, id) && HasId(tasks, freshId) ==>
              var orig := tasks[IndexOf(tasks, id)];
              r == tasks[IndexOf(tasks, freshId) := orig.(id := freshId, title := orig.title + CopySuffix, createdAt := now, updatedAt := now, status := Active)]
  {
    match Find(tasks, id)
    case None => tasks
    case Some(t) =>
      var copy := t.(id := freshId, title := t.title + CopySuffix, createdAt := now, updatedAt := now, status := Active);
      assert (tasks + [copy])[..|tasks|] == tasks;
      SaveTask(tasks, copy)
  }

  /** `updateTaskContent`: the first item with the id gets the new body and
      `updatedAt`, its task gets `updatedAt`; an absent task or item changes nothing. */
  function UpdateTaskContent(tasks: seq<Task>, id: TaskId, itemId: ItemId, newContent: string, now: Stamp): (r: seq<Task>)
    ensures |r| == |tasks|
    ensures !HasId(tasks, id) || !HasItemId(tasks[IndexOf(tasks, id)].content, itemId) ==> r == tasks
    ensures HasId(tasks, id) && HasItemId(tasks[IndexOf(tasks, id)].content, itemId) ==>
              var k := IndexOf(tasks, id);
              var c := tasks[k].content;
              var m := ItemIndex(c, itemId);
              && r[k] == tasks[k].(content := c[m := c[m].(content := newContent, updatedAt := Some(now))], updatedAt := now)
              && forall j :: 0 <= j < |tasks| && j != k ==> r[j] == tasks[j]
  {
    match Find(tasks, id)
    case None => tasks
    case Some(t) =>
      var m := ItemIndex(t.content, itemId);
      if m == |t.content| then tasks
      else
        var item := t.content[m].(content := newContent, updatedAt := Some(now));
        SaveTask(tasks, t.(content := t.content[m := item], updatedAt := now))
  }

  /** Read after write: right after `updateTaskContent` a fresh lookup of the
      task and item sees the new body. */
  lemma UpdateThenRead(tasks: seq<Task>, id: TaskId, itemId: ItemId, newContent: string, now: Stamp)
    requires HasId(tasks, id) && HasItemId(tasks[IndexOf(tasks, id)].content, itemId)
    ensures var r := UpdateTaskContent(tasks, id, itemId, newContent, now);
            && Find(r, id).Some?
            && var t := Find(r, id).value;
            && HasItemId(t.content, itemId)
            && t.content[ItemIndex(t.content, itemId)].content == newContent
  {
    var k := IndexOf(tasks, id);
    var r := UpdateTaskContent(tasks, id, itemId, newContent, now);
    IndexOfUnique(r, id, k);
    var c := tasks[k].content;
    var m := ItemIndex(c, itemId);
    var c' := r[k].content;
    assert ItemIndex(c', itemId) == m by {
      assert forall j :: 0 <= j < m ==> c'[j] == c[j];
      ItemIndexUnique(c', itemId, m);
    }
  }

  /** `deleteContentFromTask`: once the user confirms, the task keeps only the
      items with other ids and gets `updatedAt`, even when no item had the id. */
  function DeleteContentFromTask(tasks: seq<Task>, id: TaskId, itemId: ItemId, confirmed: bool, now: Stamp): (r: seq<Task>)
    ensures |r| == |tasks|
    ensures !HasId(tasks, id) || !confirmed ==> r == tasks
    ensures HasId(tasks, id) && confirmed ==>
              var k := IndexOf(tasks, id);
              && r[k] == tasks[k].(content := WithoutItem(tasks[k].content, itemId), updatedAt := now)
              && forall j :: 0 <= j < |tasks| && j != k ==> r[j] == tasks[j]
  {
    match Find(tasks, id)
    case None => tasks
    case Some(t) =>
      if !confirmed then tasks
      else SaveTask(tasks, t.(content := WithoutItem(t.content, itemId), updatedAt := now))
  }

  /** Append an item to the found task and bump its `updatedAt`. */
  function AppendItem(tasks: seq<Task>, id: TaskId, item: ContentItem, now: Stamp): (r: seq<Task>)
    ensures |r| == |tasks|
    ensures !HasId(tasks, id) ==> r == tasks
    ensures HasId(tasks, id) ==>
              var k := IndexOf(tasks, id);
              && r[k] == tasks[k].(content := tasks[k].content + [item], updatedAt := now)
              && forall j :: 0 <= j < |tasks| && j != k ==> r[j] == tasks[j]
  {
    match Find(tasks, id)
    case None => tasks
    case Some(t) => SaveTask(tasks, t.(content := t.content + [item], updatedAt := now))
  }

  /** `addNoteToTask`: with a task open in the detail view, an empty text note
      is appended to the stored copy of that task. */
  function AddNoteToTask(tasks: seq<Task>, openTask: Option<TaskId>, noteId: ItemId, now: Stamp): (r: seq<Task>)
    ensures |r| == |tasks|
    ensures openTask.None? || !HasId(tasks, openTask.value) ==> r == tasks
    ensures openTask.Some? && HasId(tasks, openTask.value) ==>
              var k := IndexOf(tasks, openTask.value);
              && r[k].content == tasks[k].content + [ContentItem(noteId, Text, "", now, Some(now))]
              && r[k] == tasks[k].(content := r[k].content, updatedAt := now)
              && forall j :: 0 <= j < |tasks| && j != k ==> r[j] == tasks[j]
  {
    if openTask.None? then tasks
    else AppendItem(tasks, openTask.value, ContentItem(noteId, Text, "", now, Some(now)), now)
  }

  /** `addImageToTask` and the paste handler read the open task twice: when the
      user starts (a closed detail view means no action) and again once the
      preview is accepted, to pick the record the image goes to. A view closed
      meanwhile makes the second read throw, so nothing is written; otherwise
      the image is appended to the stored copy of the task open at that moment. */
  function AddImageToTask(tasks: seq<Task>, openAtStart: Option<TaskId>, accepted: bool, openAtAccept: Option<TaskId>, imageData: string, imageId: ItemId, now: Stamp): (r: seq<Task>)
    ensures |r| == |tasks|
    ensures openAtStart.None? || !accepted || openAtAccept.None? || !HasId(tasks, openAtAccept.value) ==> r == tasks
    ensures openAtStart.Some? && accepted && openAtAccept.Some? && HasId(tasks, openAtAccept.value) ==>
              var k := IndexOf(tasks, openAtAccept.value);
              && r[k].content == tasks[k].content + [ContentItem(imageId, Image, imageData, now, Some(now))]
              && r[k] == tasks[k].(content := r[k].content, updatedAt := now)
              && forall j :: 0 <= j < |tasks| && j != k ==> r[j] == tasks[j]
  {
    if openAtStart.None? || !accepted || openAtAccept.None? then tasks
    else AppendItem(tasks, openAtAccept.value, ContentItem(imageId, Image, imageData, now, Some(now)), now)
  }
}

=== FILE: results.dfy ===
/** Failure-carrying return types used throughout the model: an absent value
    (a JavaScript `undefined` lookup result) and a validated outcome whose
    failure side is a rejection reported to the user with no store write. */
module Results {

  datatype Option<+T> = None | Some(value: T)

  datatype Result<+T, +E> = Success(value: T) | Failure(error: E)
}

=== FILE: seqs.dfy ===
/** Generic sequence operations that both task stores are built from:
    JavaScript's `Array.prototype.filter`, `findIndex` and counting by filter. */
module Seqs {

  /** `s.filter(p)`: the elements of `s` that satisfy `p`, in their original order. */
  function Filter<T(!new)>(p: T -> bool, s: seq<T>): (r: seq<T>)
    ensures |r| <= |s|
    ensures forall i :: 0 <= i < |r| ==> r[i] in s && p(r[i])
    ensures forall i :: 0 <= i < |s| && p(s[i]) ==> s[i] in r
    ensures forall x :: multiset(r)[x] == if p(x) then multiset(s)[x] else 0
  {
    if s == [] then []
    else
      assert s == [s[0]] + s[1..];
      if p(s[0]) then [s[0]] + Filter(p, s[1..]) else Filter(p, s[1..])
  }

  /** Filtering distributes over concatenation: together with the contract of
      `Filter` this pins down that the kept elements stay in their input order. */
  lemma {:induction false} FilterConcat<T(!new)>(p: T -> bool, a: seq<T>, b: seq<T>)
    ensures Filter(p, a + b) == Filter(p, a) + Filter(p, b)
  {
    if a == [] {
      assert a + b == b;
    } else {
      assert (a + b)[0] == a[0];
      assert (a + b)[1..] == a[1..] + b;
      FilterConcat(p, a[1..], b);
    }
  }

  /** A filter that rejects nothing returns its input unchanged. */
  lemma {:induction false} FilterKeepsAll<T(!new)>(p: T -> bool, s: seq<T>)
    requires forall i :: 0 <= i < |s| ==> p(s[i])
    ensures Filter(p, s) == s
  {
    if s != [] {
      FilterKeepsAll(p, s[1..]);
      assert s == [s[0]] + s[1..];
    }
  }

  /** `s.findIndex(p)`, with "not found" reported as `|s|` instead of -1:
      the position of the first element satisfying `p`. */
  function FirstIndex<T>(p: T -> bool, s: seq<T>): (k: nat)
    ensures k <= |s|
    ensures k < |s| ==> p(s[k])
    ensures forall j :: 0 <= j < k ==> !p(s[j])
  {
    if s == [] then 0
    else if p(s[0]) then 0
    else 1 + FirstIndex(p, s[1..])
  }

  /** Any index meeting the three conditions of `FirstIndex` is the one it returns. */
  lemma FirstIndexUnique<T>(p: T -> bool, s: seq<T>, k: nat)
    requires k <= |s|
    requires k < |s| ==> p(s[k])
    requires forall j :: 0 <= j < k ==> !p(s[j])
    ensures FirstIndex(p, s) == k
  {
  }

  /** An element found at exactly one position occurs once in the multiset. */
  lemma OccursOnce<T>(s: seq<T>, x: T, k: nat)
    requires k < |s| && s[k] == x
    requires forall j :: 0 <= j < |s| && j != k ==> s[j] != x
    ensures multiset(s)[x] == 1
  {
    assert s == s[..k] + [x] + s[k + 1..];
    assert x !in s[..k] && x !in s[k + 1..];
  }

  /** `s.filter(p).length` */
  function Count<T(!new)>(p: T -> bool, s: seq<T>): nat
  {
    |Filter(p, s)|
  }

  /** A count peels off its first element. */
  lemma CountCons<T(!new)>(p: T -> bool, s: seq<T>)
    requires s != []
    ensures Count(p, s) == (if p(s[0]) then 1 else 0) + Count(p, s[1..])
  {
  }

  /** "Every element satisfies `p` or `q`" splits into the head and the tail. */
  lemma CoveredCons<T>(p: T -> bool, q: T -> bool, s: seq<T>)
    requires s != []
    ensures (forall i :: 0 <= i < |s| ==> p(s[i]) || q(s[i])) <==>
            (p(s[0]) || q(s[0])) && forall i :: 0 <= i < |s[1..]| ==> p(s[1..][i]) || q(s[1..][i])
  {
    assert forall i :: 0 <= i < |s[1..]| ==> s[1..][i] == s[i + 1];
    if (p(s[0]) || q(s[0])) && forall i :: 0 <= i < |s[1..]| ==> p(s[1..][i]) || q(s[1..][i]) {
      forall i | 0 <= i < |s| ensures p(s[i]) || q(s[i]) {
        if i > 0 {
          assert s[i] == s[1..][i - 1];
        }
      }
    }
  }

  /** Counting with two disjoint predicates never exceeds the length, and
      reaches it exactly when every element satisfies one of them. */
  lemma {:induction false} CountDisjoint<T(!new)>(p: T -> bool, q: T -> bool, s: seq<T>)
    requires forall i :: 0 <= i < |s| ==> !(p(s[i]) && q(s[i]))
    ensures Count(p, s) + Count(q, s) <= |s|
    ensures Count(p, s) + Count(q, s) == |s| <==> forall i :: 0 <= i < |s| ==> p(s[i]) || q(s[i])
  {
    if s != [] {
      var t := s[1..];
      assert forall i :: 0 <= i < |t| ==> !(p(t[i]) && q(t[i])) by {
        forall i | 0 <= i < |t| ensures !(p(t[i]) && q(t[i])) {
          assert t[i] == s[i + 1];
        }
      }
      CountDisjoint(p, q, t);
      CountCons(p, s);
      CountCons(q, s);
      CoveredCons(p, q, s);
      assert !(p(s[0]) && q(s[0]));
    }
  }

  /** A count is zero exactly when no element satisfies the predicate. */
  lemma CountZero<T(!new)>(p: T -> bool, s: seq<T>)
    ensures Count(p, s) == 0 <==> forall i :: 0 <= i < |s| ==> !p(s[i])
  {
    if Count(p, s) != 0 {
      assert p(Filter(p, s)[0]);
    }
  }
}

=== FILE: simple_store.dfy ===
/** The simple variant: an in-memory task list mirrored to `localStorage` after
    every change. Tasks have no category, priority or status; creation and
    duplication append without checking ids, and mutators change the first
    task with the requested id in place. */
module SimpleStore {
  import opened Results
  import opened Strings
  import opened Content
  import opened Seqs

  type TaskId = int

  datatype Task = Task(id: TaskId, title: string, content: seq<ContentItem>, createdAt: Stamp)

  const CopySuffix: string := " (Copia)"

  /** The `findIndex` predicate `x => x.id === id`. */
  function IdIs(id: TaskId): Task -> bool
  {
    (x: Task) => x.id == id
  }

  /** `this.tasks.find(t => t.id === id)`, as a position; `|tasks|` when absent. */
  function IndexOf(tasks: seq<Task>, id: TaskId): (k: nat)
    ensures k <= |tasks|
    ensures k < |tasks| ==> tasks[k].id == id
    ensures forall j :: 0 <= j < k ==> tasks[j].id != id
  {
    FirstIndex(IdIs(id), tasks)
  }

  predicate HasId(tasks: seq<Task>, id: TaskId)
  {
    IndexOf(tasks, id) < |tasks|
  }

  function Find(tasks: seq<Task>, id: TaskId): Option<Task>
  {
    var k := IndexOf(tasks, id);
    if k < |tasks| then Some(tasks[k]) else None
  }

  /** `createTask`: a blank title leaves the list unchanged; otherwise exactly
      one task, with the trimmed title and no content, is appended. */
  function CreateTask(tasks: seq<Task>, title: string, freshId: TaskId, now: Stamp): (r: Result<seq<Task>, Rejection>)
    ensures r.Failure? <==> IsBlank(title)
    ensures r.Failure? ==> r.error == TitleRequired
    ensures r.Success? ==>
              && |r.value| == |tasks| + 1
              && r.value[..|tasks|] == tasks
              && r.value[|tasks|].id == freshId
              && r.value[|tasks|].title == Trim(title) && r.value[|tasks|].title != []
              && r.value[|tasks|].content == []
              && r.value[|tasks|].createdAt == now
  {
    var trimmed := Trim(title);
    if trimmed == [] then Failure(TitleRequired)
    else
      var r := tasks + [Task(freshId, trimmed, [], now)];
      assert r[..|tasks|] == tasks;
      Success(r)
  }

  /** The `filter` predicate `task => task.id !== id`. */
  function IdIsNot(id: TaskId): Task -> bool
  {
    (x: Task) => x.id != id
  }

  /** `tasks.filter(task => task.id !== id)`, in order. */
  function WithoutTask(tasks: seq<Task>, id: TaskId): (r: seq<Task>)
    ensures r == Filter(IdIsNot(id), tasks)
    ensures |r| <= |tasks|
    ensures forall j :: 0 <= j < |r| ==> r[j].id != id && r[j] in tasks
    ensures forall j :: 0 <= j < |tasks| && tasks[j].id != id ==> tasks[j] in r
    ensures HasId(tasks, id) ==> |r| < |tasks|
  {
    if tasks == [] then []
    else
      var rest := WithoutTask(tasks[1..], id);
      if tasks[0].id == id then rest else [tasks[0]] + rest
  }

  /** `deleteTask`: nothing changes unless the id exists and the user confirms;
      then every task with the id goes and the others stay in order. */
  function DeleteTask(tasks: seq<Task>, id: TaskId, confirmed: bool): (r: seq<Task>)
    ensures !(HasId(tasks, id) && confirmed) ==> r == tasks
    ensures HasId(tasks, id) && confirmed ==>
              && r == Filter(IdIsNot(id), tasks)
              && |r| < |tasks|
              && !HasId(r, id)
              && (forall j :: 0 <= j < |r| ==> r[j].id != id && r[j] in tasks)
              && (forall j :: 0 <= j < |tasks| && tasks[j].id != id ==> tasks[j] in r)
  {
    if HasId(tasks, id) && confirmed then WithoutTask(tasks, id) else tasks
  }

  /** `addContentToTask`: one item goes to the end of the first task with the
      id; earlier items and every other task are untouched; an absent task is a no-op. */
  function AddContentToTask(tasks: seq<Task>, id: TaskId, kind: Kind, content: string, itemId: ItemId, now: Stamp): (r: seq<Task>)
    ensures |r| == |tasks|
    ensures !HasId(tasks, id) ==> r == tasks
    ensures HasId(tasks, id) ==>
              var k := IndexOf(tasks, id);
              && |r[k].content| == |tasks[k].content| + 1
              && r[k].content[..|tasks[k].content|] == tasks[k].content
              && r[k].content[|tasks[k].content|] == ContentItem(itemId, kind, content, now, None)
              && r[k] == tasks[k].(content := r[k].content)
              && forall j :: 0 <= j < |tasks| && j != k ==> r[j] == tasks[j]
  {
    var k := IndexOf(tasks, id);
    if k == |tasks| then tasks
    else
      var c := tasks[k].content + [ContentItem(itemId, kind, content, now, None)];
      assert c[..|tasks[k].content|] == tasks[k].content;
      tasks[k := tasks[k].(content := c)]
  }

  /** `addTextContent`: an empty text note, awaiting its first edit. */
  function AddTextContent(tasks: seq<Task>, id: TaskId, itemId: ItemId, now: Stamp): (r: seq<Task>)
    ensures |r| == |tasks|
    ensures !HasId(tasks, id) ==> r == tasks
    ensures HasId(tasks, id) ==>
              var k := IndexOf(tasks, id);
              && r[k].content == tasks[k].content + [ContentItem(itemId, Text, "", now, None)]
              && r[k] == tasks[k].(content := r[k].content)
              && forall j :: 0 <= j < |tasks| && j != k ==> r[j] == tasks[j]
  {
    AddContentToTask(tasks, id, Text, "", itemId, now)
  }

  /** `deleteContentFromTask`: the first task with the id keeps only the items
      with other ids; an absent task or item changes nothing. */
  function DeleteContentFromTask(tasks: seq<Task>, id: TaskId, itemId: ItemId): (r: seq<Task>)
    ensures |r| == |tasks|
    ensures !HasId(tasks, id) || !HasItemId(tasks[IndexOf(tasks, id)].content, itemId) ==> r == tasks
    ensures HasId(tasks, id) ==>
              var k := IndexOf(tasks, id);
              && r[k].content == Filter(ItemIdIsNot(itemId), tasks[k].content)
              && (forall j :: 0 <= j < |r[k].content| ==> r[k].content[j].id != itemId && r[k].content[j] in tasks[k].content)
              && (forall j :: 0 <= j < |tasks[k].content| && tasks[k].content[j].id != itemId ==> tasks[k].content[j] in r[k].content)
              && r[k] == tasks[k].(content := r[k].content)
              && forall j :: 0 <= j < |tasks| && j != k ==> r[j] == tasks[j]
  {
    var k := IndexOf(tasks, id);
    if k == |tasks| then tasks
    else tasks[k := tasks[k].(content := WithoutItem(tasks[k].content, itemId))]
  }

  /** `updateContentInTask`: only the body of the first item with the id
      changes; an absent task or item changes nothing. */
  function UpdateContentInTask(tasks: seq<Task>, id: TaskId, itemId: ItemId, newContent: string): (r: seq<Task>)
    ensures |r| == |tasks|
    ensures !HasId(tasks, id) || !HasItemId(tasks[IndexOf(tasks, id)].content, itemId) ==> r == tasks
    ensures HasId(tasks, id) && HasItemId(tasks[IndexOf(tasks, id)].content, itemId) ==>
              var k := IndexOf(tasks, id);
              var c := tasks[k].content;
              var m := ItemIndex(c, itemId);
              && r[k] == tasks[k].(content := c[m := c[m].(content := newContent)])
              && forall j :: 0 <= j < |tasks| && j != k ==> r[j] == tasks[j]
  {
    var k := IndexOf(tasks, id);
    if k == |tasks| then tasks
    else
      var c := tasks[k].content;
      var m := ItemIndex(c, itemId);
      if m == |c| then tasks
      else tasks[k := tasks[k].(content := c[m := c[m].(content := newContent)])]
  }

  /** `getActiveTask`: a set `activeTaskId` decides alone (its lookup may find
      nothing); otherwise the task open in the detail view; otherwise the first
      task, if any. An id of 0 counts as unset, as JavaScript's truthiness test does. */
  function GetActiveTask(tasks: seq<Task>, activeTaskId: Option<TaskId>, openTask: Option<Task>): (r: Option<Task>)
    ensures activeTaskId.Some? && activeTaskId.value != 0 ==> r == Find(tasks, activeTaskId.value)
    ensures (activeTaskId.None? || activeTaskId.value == 0) && openTask.Some? ==> r == openTask
    ensures (activeTaskId.None? || activeTaskId.value == 0) && openTask.None? ==>
              (r.None? <==> tasks == []) && (r.Some? ==> r.value == tasks[0])
  {
    if activeTaskId.Some? && activeTaskId.value != 0 then Find(tasks, activeTaskId.value)
    else if openTask.Some? then openTask
    else if |tasks| > 0 then Some(tasks[0])
    else None
  }

  /** Whichever rule decides, the active task is a stored one, provided the
      task open in the detail view is itself stored. */
  lemma ActiveTaskIsStored(tasks: seq<Task>, activeTaskId: Option<TaskId>, openTask: Option<Task>)
    requires openTask.Some? ==> openTask.value in tasks
    ensures var r := GetActiveTask(tasks, activeTaskId, openTask);
            r.Some? ==> r.value in tasks
  {
  }

  /** The copy's content: each item spread with a newly minted id (`mint(i)` for position `i`). */
  function RemintItems(items: seq<ContentItem>, mint: nat -> ItemId): (r: seq<ContentItem>)
    ensures |r| == |items|
    ensures forall i :: 0 <= i < |items| ==> r[i] == items[i].(id := mint(i))
  {
    seq(|items|, i requires 0 <= i < |items| => items[i].(id := mint(i)))
  }

  /** `duplicateTask`: a copy with the suffixed title, new timestamps and
      re-minted item ids is appended; the original and every other task stay as they were. */
  function DuplicateTask(tasks: seq<Task>, id: TaskId, freshId: TaskId, mint: nat -> ItemId, now: Stamp): (r: seq<Task>)
    ensures !HasId(tasks, id) ==> r == tasks
    ensures HasId(tasks, id) ==>
              var orig := tasks[IndexOf(tasks, id)];
              && |r| == |tasks| + 1
              && r[..|tasks|] == tasks
              && r[|tasks|].id == freshId
              && r[|tasks|].title == orig.title + CopySuffix
              && r[|tasks|].createdAt == now
              && r[|tasks|].content == RemintItems(orig.content, mint)
              && |r[|tasks|].content| == |orig.content|
              && forall i :: 0 <= i < |orig.content| ==>
                   && r[|tasks|].content[i].id == mint(i)
                   && r[|tasks|].content[i].kind == orig.content[i].kind
                   && r[|tasks|].content[i].content == orig.content[i].content
  {
    match Find(tasks, id)
    case None => tasks
    case Some(t) =>
      var r := tasks + [Task(freshId, t.title + CopySuffix, RemintItems(t.content, mint), now)];
      assert r[..|tasks|] == tasks;
      r
  }

  /** Item ids are read from the clock (`Date.now()`, plus `Math.random()` in a
      copy). When every item of the original was minted before the moment of
      duplication and every copied item at or after it, the copy shares no
      item id with the original. */
  lemma DuplicateSharesNoItemIds(tasks: seq<Task>, id: TaskId, freshId: TaskId, mint: nat -> ItemId, now: Stamp)
    requires HasId(tasks, id)
    requires forall j :: 0 <= j < |tasks[IndexOf(tasks, id)].content| ==> tasks[IndexOf(tasks, id)].content[j].id < now
    requires forall i: nat :: mint(i) >= now
    ensures var r := DuplicateTask(tasks, id, freshId, mint, now);
            var orig := tasks[IndexOf(tasks, id)];
            forall i, j :: 0 <= i < |r[|tasks|].content| && 0 <= j < |orig.content| ==> r[|tasks|].content[i].id != orig.content[j].id
  {
  }
}

=== FILE: strings.dfy ===
/** The string primitives the source leans on: JavaScript's `\s` class and
    `trim`, `toLowerCase`, `includes`, and the ordering `localeCompare` gives
    titles. `\s` and `trim` are exact; lower-casing and ordering are stated
    for the ASCII range and code-point order respectively. */
module Strings {

  /** A JavaScript WhiteSpace or LineTerminator code point: the set matched by
      `\s` and stripped by `String.prototype.trim`. */
  predicate IsSpace(c: char)
  {
    var n := c as int;
    || n == 0x09 || n == 0x0A || n == 0x0B || n == 0x0C || n == 0x0D || n == 0x20
    || n == 0xA0 || n == 0x1680 || (0x2000 <= n <= 0x200A)
    || n == 0x2028 || n == 0x2029 || n == 0x202F || n == 0x205F || n == 0x3000 || n == 0xFEFF
  }

  /** True when `trim()` of the string is empty, i.e. JavaScript treats it as falsy after trimming. */
  predicate IsBlank(s: string)
  {
    forall i :: 0 <= i < |s| ==> IsSpace(s[i])
  }

  /** Drops the leading whitespace and nothing else. */
  function TrimStart(s: string): (r: string)
    ensures |r| <= |s| && r == s[|s| - |r|..]
    ensures forall i :: 0 <= i < |s| - |r| ==> IsSpace(s[i])
    ensures r == [] || !IsSpace(r[0])
  {
    if s != [] && IsSpace(s[0]) then TrimStart(s[1..]) else s
  }

  /** Drops the trailing whitespace and nothing else. */
  function TrimEnd(s: string): (r: string)
    ensures |r| <= |s| && r == s[..|r|]
    ensures forall i :: |r| <= i < |s| ==> IsSpace(s[i])
    ensures r == [] || !IsSpace(r[|r| - 1])
  {
    if s != [] && IsSpace(s[|s| - 1]) then TrimEnd(s[..|s| - 1]) else s
  }

  /** Where `trim` cuts: with `e` the input less its trailing whitespace and `r`
      that less its leading whitespace, `r` is the slice of the input from
      `a = |e| - |r|`, flanked by blank ends. */
  lemma TrimCuts(s: string, e: string, r: string)
    requires |e| <= |s| && e == s[..|e|]
    requires forall i :: |e| <= i < |s| ==> IsSpace(s[i])
    requires |r| <= |e| && r == e[|e| - |r|..]
    requires forall i :: 0 <= i < |e| - |r| ==> IsSpace(e[i])
    ensures var a := |e| - |r|;
            r == s[a..a + |r|] && IsBlank(s[..a]) && IsBlank(s[a + |r|..])
  {
    var a := |e| - |r|;
    assert IsBlank(s[..a]) by {
      forall i | 0 <= i < a ensures IsSpace(s[..a][i]) {
        assert s[..a][i] == e[i];
      }
    }
    assert IsBlank(s[|e|..]) by {
      forall i | 0 <= i < |s| - |e| ensures IsSpace(s[|e|..][i]) {
        assert s[|e|..][i] == s[|e| + i];
      }
    }
  }

  /** `s.trim()` */
  function Trim(s: string): (r: string)
    ensures |r| <= |s|
    ensures r == [] <==> IsBlank(s)
    ensures r == [] || (!IsSpace(r[0]) && !IsSpace(r[|r| - 1]))
    ensures exists a :: 0 <= a && a + |r| <= |s| && r == s[a..a + |r|] && IsBlank(s[..a]) && IsBlank(s[a + |r|..])
  {
    var e := TrimEnd(s);
    var r := TrimStart(e);
    assert r != [] ==> r[|r| - 1] == e[|e| - 1];
    assert r == [] ==> e == [];
    TrimCuts(s, e, r);
    r
  }

  /** Trimming a string that neither starts nor ends with whitespace changes nothing. */
  lemma TrimUnpadded(s: string)
    requires s == [] || (!IsSpace(s[0]) && !IsSpace(s[|s| - 1]))
    ensures Trim(s) == s
  {
  }

  /** Trimming twice is trimming once, so a title stored trimmed survives a
      save-and-edit cycle unchanged. */
  lemma TrimIdempotent(s: string)
    ensures Trim(Trim(s)) == Trim(s)
  {
    TrimUnpadded(Trim(s));
  }

  /** `toLowerCase` on one character, for the ASCII letters. */
  function LowerChar(c: char): char
  {
    if 'A' <= c <= 'Z' then (c as int + 32) as char else c
  }

  /** `toLowerCase` on a string, character by character. */
  function Lower(s: string): (r: string)
    ensures |r| == |s|
    ensures forall i :: 0 <= i < |s| ==> r[i] == LowerChar(s[i])
    ensures forall i :: 0 <= i < |s| && 'A' <= s[i] <= 'Z' ==> r[i] as int == s[i] as int + 32
    ensures forall i :: 0 <= i < |s| && !('A' <= s[i] <= 'Z') ==> r[i] == s[i]
    ensures forall i :: 0 <= i < |r| ==> !('A' <= r[i] <= 'Z')
  {
    seq(|s|, i requires 0 <= i < |s| => LowerChar(s[i]))
  }

  /** `sub` occurs in `s` starting at position `i`. */
  predicate OccursAt(s: string, sub: string, i: int)
  {
    0 <= i && i + |sub| <= |s| && s[i..i + |sub|] == sub
  }

  predicate StartsWith(s: string, prefix: string)
  {
    |prefix| <= |s| && s[..|prefix|] == prefix
  }

  /** `s.includes(sub)`, scanning the start positions left to right. */
  predicate Contains(s: string, sub: string)
  {
    StartsWith(s, sub) || (s != [] && Contains(s[1..], sub))
  }

  /** The scan agrees with the textbook definition of a substring occurrence. */
  lemma {:induction false} ContainsSpec(s: string, sub: string)
    ensures Contains(s, sub) <==> exists i :: OccursAt(s, sub, i)
  {
    if s == [] {
      if Contains(s, sub) {
        assert OccursAt(s, sub, 0);
      }
    } else {
      ContainsSpec(s[1..], sub);
      if StartsWith(s, sub) {
        assert OccursAt(s, sub, 0);
      }
      if Contains(s[1..], sub) {
        var i :| OccursAt(s[1..], sub, i);
        assert s[1..][i..i + |sub|] == s[i + 1..i + 1 + |sub|];
        assert OccursAt(s, sub, i + 1);
      }
      if exists i :: OccursAt(s, sub, i) {
        var i :| OccursAt(s, sub, i);
        if i > 0 {
          assert s[1..][i - 1..i - 1 + |sub|] == s[i..i + |sub|];
          assert OccursAt(s[1..], sub, i - 1);
        }
      }
    }
  }

  /** Every string includes the empty string, so an empty query matches everything. */
  lemma ContainsEmpty(s: string)
    ensures Contains(s, [])
  {
    assert StartsWith(s, []);
  }

  /** Ascending code-point lexicographic order: the stand-in for `localeCompare(...) <= 0`. */
  predicate LexLe(a: string, b: string)
    ensures a <= b ==> LexLe(a, b)
  {
    a == [] || (b != [] && (a[0] < b[0] || (a[0] == b[0] && LexLe(a[1..], b[1..]))))
  }

  /** Two titles ordered both ways are equal. */
  lemma {:induction false} LexLeAntisymmetric(a: string, b: string)
    requires LexLe(a, b) && LexLe(b, a)
    ensures a == b
  {
    if a != [] && b != [] {
      LexLeAntisymmetric(a[1..], b[1..]);
      assert a == [a[0]] + a[1..] && b == [b[0]] + b[1..];
    }
  }

  /** The order compares titles at their first difference, and a prefix comes first. */
  lemma {:induction false} LexLeFirstDifference(a: string, b: string)
    ensures LexLe(a, b) <==> a <= b || exists k :: 0 <= k < |a| && k < |b| && a[..k] == b[..k] && a[k] < b[k]
  {
    if a != [] && b != [] {
      LexLeFirstDifference(a[1..], b[1..]);
      if a[0] == b[0] {
        if LexLe(a[1..], b[1..]) && !(a[1..] <= b[1..]) {
          var k :| 0 <= k < |a[1..]| && k < |b[1..]| && a[1..][..k] == b[1..][..k] && a[1..][k] < b[1..][k];
          assert a[..k + 1] == [a[0]] + a[1..][..k];
          assert b[..k + 1] == [b[0]] + b[1..][..k];
        }
        if exists k :: 0 <= k < |a| && k < |b| && a[..k] == b[..k] && a[k] < b[k] {
          var k :| 0 <= k < |a| && k < |b| && a[..k] == b[..k] && a[k] < b[k];
          assert k > 0;
          assert a[1..][..k - 1] == a[..k][1..];
          assert b[1..][..k - 1] == b[..k][1..];
        }
        if a <= b {
          assert a[1..] <= b[1..];
        }
      } else if a[0] < b[0] {
        assert a[..0] == b[..0];
      } else {
        if exists k :: 0 <= k < |a| && k < |b| && a[..k] == b[..k] && a[k] < b[k] {
          var k :| 0 <= k < |a| && k < |b| && a[..k] == b[..k] && a[k] < b[k];
          if k > 0 {
            assert a[..k][0] == b[..k][0];
          }
        }
      }
    }
  }

  /** Any two titles are comparable. */
  lemma {:induction false} LexLeTotal(a: string, b: string)
    ensures LexLe(a, b) || LexLe(b, a)
  {
    if a != [] && b != [] && a[0] == b[0] {
      LexLeTotal(a[1..], b[1..]);
    }
  }

  /** The title order is transitive. */
  lemma {:induction false} LexLeTransitive(a: string, b: string, c: string)
    requires LexLe(a, b) && LexLe(b, c)
    ensures LexLe(a, c)
  {
    if a != [] && b != [] && c != [] && a[0] == b[0] && b[0] == c[0] {
      LexLeTransitive(a[1..], b[1..], c[1..]);
    }
  }
}
